=== FILE: README.md ===
# cryptochunks container framing, in Dafny

cryptochunks is a pair of PHP endpoints that encrypt and decrypt a request
body as a stream.

- `api/encrypt.php` derives a 32-byte key from the `X-Password` header and
  a fresh 16-byte salt (Argon2id, moderate limits). It starts an
  XChaCha20-Poly1305 secretstream, writes salt and stream header, then
  reads the body 64 KiB at a time. Each piece is pushed as one chunk,
  tagged MESSAGE, or FINAL when the read hit end-of-file or came back
  short. The loop stops after the FINAL chunk.
- `api/decrypt.php` reads the salt and header back and re-derives the key.
  It then collects ciphertext into a buffer of up to 64 KiB + 17 bytes and
  pulls the buffer whenever it is full or input has ended. Each plaintext
  is written out as soon as it authenticates, and the loop stops at a
  FINAL tag or at end of input.

The model has six modules:

- `Sodium`: the libsodium calls and constants.
- `ByteSource`: a PHP input stream under `fread`/`feof`. End-of-file is
  lazy, and `grain` is the most bytes one read delivers.
- `Container`: the container layout and what a correct chunking is.
- `Encrypt` and `Decrypt`: the two endpoints. Each is given twice:
  - as the code is written;
  - as the code evidently intends (see Findings).

  Lemmas relate the two versions. The loops the endpoints run
  (`EncodeStream`, `DecodeStream`) are the written versions.
- `RoundTrip`: the properties that relate the two endpoints.

The cryptographic primitives are parameters. The only thing assumed about
them is libsodium's functional-correctness promise, `Sodium.Correct`: a
chunk pushed as the i-th chunk of a session pulls back, as the i-th chunk
of a session with the same key and header, to the same plaintext and tag.
A toy instance shows the promise can be met.

Where the design intent and the code part ways, the model follows the
code:

- End-of-file is set only by a read that tries to get more bytes than
  remain. A read that takes exactly the last bytes leaves it clear. So an
  input whose length is an exact multiple of 64 KiB gets an extra, empty
  FINAL chunk from the intended loop or, as written, when a read can
  deliver a whole chunk.
- The decoder fills its buffer across chunk boundaries. A FINAL chunk
  shorter than the buffer is pulled alone only when nothing follows it;
  bytes after it go into the same buffer and are pulled with it.
- A container cut off at a chunk boundary decodes with success. The
  missing FINAL chunk is not reported.
- Salt and header are each taken from a single read. A short read is
  treated as a missing salt or header.
- Two places where the code evidently does not do what it means are
  listed under Findings. Each is modelled both ways.

## Model

| member | source | states |
|---|---|---|
| Sodium.PwHash | api/encrypt.php:19-25 | Argon2id returns exactly the requested number of bytes. |
| Sodium.InitPull | api/decrypt.php:47-52 | init_pull fails exactly when the header is refused for the key. Otherwise it starts the very session init_push started for that key and header (api/encrypt.php:39): chunk 0. |
| Sodium.PushChunk | api/encrypt.php:74-79 | A push adds ABYTES of overhead and advances the session by one chunk. |
| Sodium.PullChunk | api/decrypt.php:83-86 | Pulling the session's own next push returns its message and tag, and moves the session on by one chunk. |
| Sodium.PullAfterPush | api/decrypt.php:83-86 | Pulling what the same session pushed returns the message and its tag. |
| ByteSource.Open | api/encrypt.php:41 | A freshly opened stream has the whole body left to read, and no end-of-file. |
| ByteSource.Read | api/encrypt.php:61 | fread returns the next bytes, at most as many as asked and as the stream delivers. It returns fewer only at end of input. End-of-file is set exactly when the call asked for more than remained. |
| ByteSource.ReadSplitsRemaining | api/decrypt.php:66 | A read neither loses nor repeats a byte. |
| ByteSource.ReadFull | api/encrypt.php:61 | The intended read of a chunk, for any read size: it collects exactly the next min(n, remaining) bytes. End-of-file is set iff the input ran out first. |
| ByteSource.ReadFullStep | api/encrypt.php:61 | A read that neither fills the chunk nor reaches end-of-file takes at least one byte, and the collection continues from there. |
| Encrypt.GenerateKey | api/encrypt.php:16-30 | The key is 32 bytes, and the salt returned is the salt the key was derived from. |
| Encrypt.PushTurn | api/encrypt.php:60-84 | The intended turn, for any read size. It takes the front of the remaining input, tags it MESSAGE iff it is a full 64 KiB, and FINAL iff less than a chunk remained. A FINAL piece takes all that was left, and a MESSAGE turn never sets end-of-file. The piece is sealed as the session's next push. |
| Encrypt.PushTurnAsWritten | api/encrypt.php:60-84 | The turn as written is one fread. It is exactly the intended turn when a read can deliver a whole chunk. With shorter reads the piece is FINAL and holds only what the one read returned. |
| Encrypt.PushLoop | api/encrypt.php:57-85 | The loop pushes nothing once end-of-file is known, and at least one chunk otherwise. |
| Encrypt.PushLoopAsWritten | api/encrypt.php:57-85 | The loop as written pushes nothing once end-of-file is known, and at least one chunk otherwise. |
| Encrypt.AsWrittenLoopWithFullReads | api/encrypt.php:57-85 | When a read can deliver a whole chunk, the loop as written makes exactly the intended pushes. |
| Encrypt.PushLoopChunks | api/encrypt.php:57-85 | The intended loop cuts the input, whatever the read size, into full MESSAGE chunks and then one FINAL chunk of the remaining length % 64 KiB bytes. The plaintexts concatenate back to the input, and chunk i is the session's i-th push. |
| Encrypt.OneFinalLast | api/encrypt.php:67-84 | Whatever the read size, the intended loop writes exactly one FINAL chunk, and it is the last. Every chunk before it is MESSAGE. |
| Encrypt.PushLoopStep | api/encrypt.php:60-85 | A turn's piece comes before everything later turns push, and nothing follows a FINAL piece. |
| Encrypt.Encode | api/encrypt.php:54-55 | The response body starts with the salt and then the stream header. |
| Encrypt.EncodeAsWritten | api/encrypt.php:54-85 | The body as written also starts with salt and header. When a read can deliver a whole chunk, it is the intended container. |
| Encrypt.EncodeLength | api/encrypt.php:54-85 | The container is 40 bytes plus the input plus 17 bytes for each of its length / 64 KiB + 1 chunks. |
| Encrypt.CiphersLength | api/encrypt.php:74-81 | The chunks of one session are 17 bytes per chunk longer than their plaintexts. |
| Encrypt.EmptyInputOneFinalPiece | api/encrypt.php:60-72 | In the intended loop, whatever the read size, an empty body still gives exactly one chunk, an empty FINAL one. |
| Encrypt.ShortReadsEndTheStream | api/encrypt.php:61-72 | As written, a stream that delivers less than 64 KiB per read ends the container after one FINAL chunk. That chunk holds only the first read. |
| Encrypt.ExactMultipleEndsWithEmptyFinal | api/encrypt.php:60-72 | In the intended loop, whatever the read size, an input of k full chunks gives k MESSAGE chunks and then an empty FINAL chunk. |
| Encrypt.CiphersStep | api/encrypt.php:74-81 | A turn's ciphertext is written before the ciphertexts of all later turns. |
| Encrypt.WriteStep | api/encrypt.php:81-84 | Writing one turn keeps "written so far, then the remaining turns" equal to the whole body. |
| Encrypt.EncodeStream | api/encrypt.php:33-85 | The loop as the endpoint runs it, one fread per turn, writes exactly `EncodeAsWritten`'s body. When a read can deliver a whole chunk, that is the intended container. |
| Decrypt.RegenerateKey | api/decrypt.php:13-23 | The re-derived key is 32 bytes. |
| Decrypt.Fill | api/decrypt.php:66-76 | One read grows the buffer by exactly the bytes consumed, never past a full ciphertext chunk. End-of-file comes only from a read that tried to go past the end. A read that does not reach end-of-file makes progress. |
| Decrypt.Deliver | api/decrypt.php:78-102 | An empty buffer ends decoding with success. A pull failure aborts with nothing more written, iff the buffer is non-empty and does not open; this is the intended check (see Findings). Otherwise the plaintext is appended, and decoding goes on iff the tag is not FINAL and input has not ended. |
| Decrypt.DeliverAsWritten | api/decrypt.php:83-102 | The step as written agrees with `Deliver` whenever the pull succeeds. A failed pull writes nothing and goes on, or ends with success at end of input. It never stops with an error. |
| Decrypt.FailedPullGoesUnnoticed | api/decrypt.php:83-93 | On a chunk that fails to authenticate, `Deliver` aborts with PullFailed, while `DeliverAsWritten` carries on with the session unchanged. |
| Decrypt.FailedPullExample | api/decrypt.php:83-93 | A concrete such chunk exists, and the two steps part on it. |
| Decrypt.PullLoop | api/decrypt.php:62-104 | The intended loop only appends to the output, and the only error it reports is a failed pull. |
| Decrypt.PullLoopAsWritten | api/decrypt.php:62-104 | The loop as written only appends to the output and never reports an error. Wherever the intended loop finishes, this loop returns the same result. |
| Decrypt.Prepare | api/decrypt.php:29-52 | A short salt read is refused, and so is a short header read after a full salt. With correct primitives a full header is never refused. The session is then keyed from the password and the embedded salt, and started from the embedded header. Reading goes on just after the header. |
| Decrypt.Decode | api/decrypt.php:29-52 | A short salt read is refused before any output, and so is a short header read after a full salt. With correct primitives a full header is never refused. An error after output is a failed pull. |
| Decrypt.DecodeAsWritten | api/decrypt.php:29-104 | The endpoint as written refuses only a missing salt or header, and never after output. It differs from `Decode` only where `Decode` reports a failed pull. |
| Decrypt.FailedFirstChunkExample | api/decrypt.php:83-93 | A concrete container whose first chunk does not authenticate. `Decode` rejects it with nothing written; the endpoint as written reports success with nothing written. |
| Decrypt.DecodeUsesEmbeddedSalt | api/decrypt.php:34-47 | Past salt and header, decoding is the pull loop keyed from the password and the embedded salt, started from the embedded header. |
| Decrypt.FillsBuffer | api/decrypt.php:65-78 | Whatever the read size, the buffer collects exactly the next bytes of input until it holds a full chunk. It is then pulled without end-of-file. |
| Decrypt.FillsBufferPartly | api/decrypt.php:66-76 | When the rest of the input holds the rest of the chunk, a read that leaves the buffer short is followed by reads that complete it from the next input byte. |
| Decrypt.AccumulateStep | api/decrypt.php:65-78 | A short read that does not reach end-of-file just goes round again. |
| Decrypt.FullStep | api/decrypt.php:78-86 | A read that fills the buffer has it pulled. |
| Decrypt.FillTakes | api/decrypt.php:66-72 | While the rest of the input can fill the buffer, one read takes the next bytes and does not reach end-of-file. |
| Decrypt.DrainsBuffer | api/decrypt.php:65-81 | When the rest of the input does not fill the buffer, the reads reach end-of-file, and the buffer is delivered with everything left. Decoding then stops whatever the tag. |
| Decrypt.EndOfInputFinishes | api/decrypt.php:74-81 | At end of input with nothing buffered, decoding ends with success and writes nothing more, FINAL seen or not. |
| Decrypt.StopsAtFinal | api/decrypt.php:95-100 | A FINAL chunk that fills the buffer (64 KiB + ABYTES of ciphertext) ends decoding. Its plaintext is written, and nothing after it is read. A shorter FINAL chunk is pulled alone only when nothing follows it (`DrainsBuffer`). |
| Decrypt.ShortFinalIsReadPast | api/decrypt.php:66-100 | The read that fills the buffer crosses chunk boundaries. An empty FINAL chunk followed by a buffer's worth of zeros is pulled together with them, and decoding writes 64 KiB instead of nothing. |
| Decrypt.PullFailureAborts | api/decrypt.php:83-93 | In the intended loop, a full chunk that does not open aborts decoding with nothing more written, whatever follows it. |
| Decrypt.DecodeStream | api/decrypt.php:29-104 | The endpoint as it runs, with its eof flag, its breaks and the failed-pull test the destructuring defeats, returns exactly `DecodeAsWritten`'s result. |
| RoundTrip.KeysAgree | api/decrypt.php:13-23 | Both endpoints derive the same key from the same password and salt. |
| RoundTrip.RoundTrip | api/decrypt.php:62-104 | Decrypting what the intended encoder produced with the same password returns the input. This holds for every input and every encoder read size, when the decoder's reads deliver a header's worth. |
| RoundTrip.EndpointsRoundTrip | api/encrypt.php:57-85 | The two endpoints as written return every input, when the encoder's reads deliver whole chunks. |
| RoundTrip.EncodeLayout | api/encrypt.php:54-85 | The container is salt, header, then input length / 64 KiB full MESSAGE chunks pushed in order by the password's session, then a FINAL chunk of the rest. Together their plaintexts are the input. |
| RoundTrip.DecodeLayout | api/decrypt.php:34-104 | Decoding salt, header, such MESSAGE chunks and one short chunk writes every plaintext in order and finishes. |
| RoundTrip.PullAll | api/decrypt.php:62-104 | The pull loop over such chunks writes their plaintexts and finishes. |
| RoundTrip.PullMessages | api/decrypt.php:65-103 | Pulling a run of full MESSAGE chunks writes their plaintexts in order. The session ends up past them and the read position just after them. |
| RoundTrip.PullMessagesCons | api/decrypt.php:65-103 | The step of `PullMessages` for a non-empty run. |
| RoundTrip.PullMessage | api/decrypt.php:83-102 | One full MESSAGE chunk is pulled, written, and the loop goes round from just after it. |
| RoundTrip.MessagesShift | api/encrypt.php:74-79 | The tail of a run the session pushed is a run pushed by its next state. |
| RoundTrip.PullLast | api/decrypt.php:74-100 | The ciphertext of one short chunk with nothing after it is pulled, written, and ends decoding. |
| RoundTrip.DecodeAfterPrefix | api/decrypt.php:34-47 | Decoding an input that starts with salt and header runs the pull loop on what follows. |
| RoundTrip.TruncationGoesUnreported | api/decrypt.php:65-81 | A container cut off by its whole last chunk decodes with success, having written only the full chunks. |
| RoundTrip.DecodeMessagesOnly | api/decrypt.php:65-81 | Salt, header and a run of full MESSAGE chunks with nothing after them decode with success. |
| RoundTrip.ShortReadsLoseTheRest | api/encrypt.php:61-72 | With encoder reads shorter than a chunk, the endpoint as written encrypts only the first read. Either decoder returns just that prefix of the input and reports success. |
| RoundTrip.ShortLayout | api/encrypt.php:61-84 | With short reads, the body as written is salt, header and one FINAL chunk holding the first read. |
| RoundTrip.PushTurnSealsFirst | api/encrypt.php:74-79 | The first chunk of the loop as written is the session's first push. |

## Left out

- The HTTP glue is not modelled: method and header checks, response
  headers and status codes (api/encrypt.php:3-14, 49-52;
  api/decrypt.php:3-11, 54-59). Error outcomes are the `DecodeError`
  values instead, one per exit.
- `fopen` failure of `php://input` (api/encrypt.php:41-45,
  api/decrypt.php:29-33) is left out: it is I/O, not framing.
- `fread` returning `false` (api/encrypt.php:63-65,
  api/decrypt.php:68-70) is left out. The model's reads always succeed; an
  I/O error is outside the framing.
- `fclose` and `flush` are left out; they have no effect on the bytes
  written.
- The primitives (Argon2id, XChaCha20-Poly1305) are parameters. Only
  their functional correctness is assumed. Confidentiality, and that a
  tampered chunk fails to open, are not stated.
- `random_bytes` and the random header of `init_push` are parameters
  (`salt`, `header`) of the encoder.
- `Decode` never reports InitPullFailed when the primitives are correct,
  because a 24-byte header and a 32-byte key are always accepted. The
  refusal path is modelled but only reached by primitives that break
  the promise.
- ByteSource.Read: every read of one stream is cut at the same `grain`.
  Read sizes that vary from call to call are not modelled. As written,
  the encoder would end the container at any short read in the middle
  of the body. The model shows this only for a short first read
  (`ShortReadsEndTheStream`).
- Decrypt.PullLoop: uses the intended abort on a failed pull, not the
  code as written. `PullLoopAsWritten` is the written loop.
- Decrypt.Decode: runs the intended `PullLoop`. `DecodeAsWritten` and
  `DecodeStream` are the endpoint as written.
- Encrypt.PushTurn, Encrypt.PushLoop, Encrypt.Encode: read each chunk
  until it is full or input ends, as intended, not with the single
  fread as written. `PushTurnAsWritten`, `PushLoopAsWritten`,
  `EncodeAsWritten` and `EncodeStream` are the code as written.
- RoundTrip.RoundTrip: is about the intended encoder and decoder. For the
  endpoints as written, `EndpointsRoundTrip` covers reads of whole
  chunks, and `ShortReadsLoseTheRest` covers shorter ones.
- The browser client (`script.js`) is not part of this model.

## Findings

| source | as written | input that shows it | evidently intended | confidence | as-written member | corrected member |
|---|---|---|---|---|---|---|
| api/decrypt.php:83-93 | `list($decrypted_chunk, $tag) = pull(...)` destructures the `false` of a failed pull into two nulls. So `$decrypted_chunk === false` never holds: the chunk writes nothing, its tag is not FINAL, and the loop goes on with the session where it was. Where no later chunk opens, the request ends with success. (That later chunks fail too follows from libsodium leaving the state unadvanced after a failed pull; that is outside this model.) | A container whose only chunk does not authenticate. `FailedFirstChunkExample` gives one: 40 zero bytes and the byte 7, under the toy primitives. The endpoint as written returns success with nothing written. | A chunk that fails to authenticate aborts decryption with an error, and nothing more is written. | medium; not executed. It rests on PHP assigning null without error when `list()` meets a non-array. | Decrypt.DeliverAsWritten, Decrypt.PullLoopAsWritten, Decrypt.DecodeAsWritten, Decrypt.FailedFirstChunkExample | Decrypt.Deliver, Decrypt.PullLoop, Decrypt.Decode, Decrypt.PullFailureAborts |
| api/encrypt.php:61-72 | Each turn makes one `fread($source_handle, 65536)` and tags the piece FINAL when it comes back short. fread on a stream that is not a plain file makes at most one underlying read per call, about 8192 bytes for `php://input`. Such a read is short although input remains, so the container ends after the first piece and the rest of the body is never encrypted. Decryption then reports success with a prefix. | Any body longer than what one read delivers, e.g. 10000 bytes read 8192 at a time. `ShortReadsLoseTheRest` shows that the round trip returns only the first 8192 bytes. | Each piece is a full 64 KiB unless input has ended: read until the chunk is full or end-of-file, and tag FINAL only then. | medium; not executed. It rests on PHP's documented fread behaviour for non-plain streams, and on `php://input` being such a stream. | Encrypt.PushTurnAsWritten, Encrypt.ShortReadsEndTheStream, RoundTrip.ShortReadsLoseTheRest | ByteSource.ReadFull, Encrypt.PushTurn, RoundTrip.RoundTrip |

=== FILE: bytesource.dfy ===
/** A readable byte stream as PHP's `fread`/`feof` see it: the bytes, a read
    cursor, the end-of-file flag, and `grain`, the most bytes a single read
    call delivers (a stream may hand over less than was asked for, as
    network and pipe streams do; a plain in-memory body delivers it all).

    End-of-file is lazy: the flag is set only by a read call that tries to
    get more bytes than remain. A read that takes exactly the rest of the
    stream leaves it clear, and only the next read sets it. */
module ByteSource {
  import opened Sodium

  datatype Source = Source(data: seq<byte>, pos: nat, eof: bool, grain: nat) {

    /** The cursor is inside the data, end-of-file is only ever reported at
        the end, and every read call can deliver something. */
    predicate Valid() {
      pos <= |data| && (eof ==> pos == |data|) && grain > 0
    }

    function Remaining(): seq<byte>
      requires Valid()
    {
      data[pos..]
    }
  }

  /** fopen: a fresh stream positioned at its first byte. */
  function Open(data: seq<byte>, grain: nat): (s: Source)
    requires grain > 0
    ensures s.Valid() && !s.eof && s.grain == grain
    ensures s.Remaining() == data
  {
    Source(data, 0, false, grain)
  }

  /** fread(s, n). PHP rejects a length of zero, and no caller passes one. */
  function Read(s: Source, n: nat): (r: (seq<byte>, Source))
    requires s.Valid() && n > 0
    ensures r.1.Valid() && r.1.data == s.data && r.1.grain == s.grain && s.pos <= r.1.pos
    // the bytes returned are exactly the ones consumed, in order
    ensures r.0 == s.data[s.pos..r.1.pos]
    ensures |r.0| <= n && |r.0| <= s.grain
    // a read returns less than it could only when the stream has run out
    ensures |r.0| < n && |r.0| < s.grain ==> r.1.pos == |s.data|
    // lazy end-of-file: set iff the call tried to get more than remained
    ensures r.1.eof <==> n > |s.data| - s.pos && s.grain > |s.data| - s.pos
  {
    var want := if n <= s.grain then n else s.grain;
    var k := if want <= |s.data| - s.pos then want else |s.data| - s.pos;
    (s.data[s.pos..s.pos + k], Source(s.data, s.pos + k, want > |s.data| - s.pos, s.grain))
  }

  /** fread repeated until `n` bytes have been collected after `got` or
      end-of-file is set, each call asking for what is still missing. */
  function ReadFull(s: Source, n: nat, got: seq<byte>): (r: (seq<byte>, Source))
    requires s.Valid() && |got| < n
    ensures r.1.Valid() && r.1.data == s.data && r.1.grain == s.grain
    // whatever the read size, the bytes collected are the next ones, as
    // many as are missing or as remain
    ensures var k := if n - |got| <= |s.Remaining()| then n - |got| else |s.Remaining()|;
      r.0 == got + s.Remaining()[..k] && r.1.pos == s.pos + k
    // end-of-file is set iff the input ran out before `n` bytes were collected
    ensures r.1.eof <==> |got| + |s.Remaining()| < n
    decreases |s.data| - s.pos
  {
    var (chunk, next) := Read(s, n - |got|);
    var more := got + chunk;
    if |more| == n || next.eof then (more, next)
    else
      ReadFullStep(s, n, got);
      ReadFull(next, n, more)
  }

  /** One call of `ReadFull` that neither fills nor reaches end-of-file
      takes at least one byte, and what it takes is the front of what
      remains; the rest of the collection continues from there. */
  lemma ReadFullStep(s: Source, n: nat, got: seq<byte>)
    requires s.Valid() && |got| < n
    requires |got + Read(s, n - |got|).0| < n && !Read(s, n - |got|).1.eof
    ensures s.pos < Read(s, n - |got|).1.pos
    ensures Read(s, n - |got|).1.Valid()
    ensures Read(s, n - |got|).0 + Read(s, n - |got|).1.Remaining() == s.Remaining()
    // the rest of the collection continues the bytes taken so far
    ensures var (chunk, next) := Read(s, n - |got|);
      forall j :: 0 <= j <= |next.Remaining()| ==>
        got + chunk + next.Remaining()[..j] == got + s.Remaining()[..|chunk| + j]
  {
    var (chunk, next) := Read(s, n - |got|);
    ReadSplitsRemaining(s, n - |got|);
    forall j | 0 <= j <= |next.Remaining()|
      ensures got + chunk + next.Remaining()[..j] == got + s.Remaining()[..|chunk| + j]
    {
      assert s.Remaining()[..|chunk| + j] == chunk + next.Remaining()[..j];
    }
  }

  /** Reading never loses or repeats a byte: what comes back followed by
      what is still there is what was there before. */
  lemma ReadSplitsRemaining(s: Source, n: nat)
    requires s.Valid() && n > 0
    ensures Read(s, n).0 + Read(s, n).1.Remaining() == s.Remaining()
  {
    var r := Read(s, n);
    assert s.data[s.pos..] == s.data[s.pos..r.1.pos] + s.data[r.1.pos..];
  }

  /** Two ways of cutting one sequence in two, the first cut no earlier
      than the second, differ by the bytes between the cuts. */
  lemma SplitAppend(a: seq<byte>, b: seq<byte>, c: seq<byte>, d: seq<byte>)
    requires a + b == c + d && |a| >= |c|
    ensures a == c + d[..|a| - |c|] && b == d[|a| - |c|..]
  {
    assert a == (a + b)[..|a|];
    assert b == (a + b)[|a|..];
  }
}

=== FILE: container.dfy ===
/** The container layout shared by both endpoints:
      salt (SALTBYTES) ++ header (HEADERBYTES) ++ chunk_1 ++ ... ++ chunk_n
    where every chunk is one secretstream push of at most CHUNK_SIZE
    plaintext bytes. */
module Container {
  import opened Sodium

  /** Plaintext bytes per chunk, 64 KiB on both sides. */
  const CHUNK_SIZE: nat := 64 * 1024
  /** Ciphertext bytes of a full chunk. */
  const ENCRYPTED_CHUNK_SIZE: nat := CHUNK_SIZE + ABYTES

  /** One push made by the encoder: the plaintext piece, its tag and the
      ciphertext written for it. */
  datatype Piece = Piece(plain: seq<byte>, tag: Tag, cipher: seq<byte>)

  /** The plaintext pieces, in order. */
  function Plains(ps: seq<Piece>): seq<byte> {
    if ps == [] then [] else ps[0].plain + Plains(ps[1..])
  }

  /** The ciphertexts, in order: what follows the header in the container. */
  function Ciphers(ps: seq<Piece>): seq<byte> {
    if ps == [] then [] else ps[0].cipher + Ciphers(ps[1..])
  }

  lemma {:induction false} PlainsAppend(a: seq<Piece>, b: seq<Piece>)
    ensures Plains(a + b) == Plains(a) + Plains(b)
    decreases |a|
  {
    if a == [] {
      assert a + b == b;
    } else {
      assert (a + b)[1..] == a[1..] + b;
      PlainsAppend(a[1..], b);
    }
  }

  lemma {:induction false} CiphersAppend(a: seq<Piece>, b: seq<Piece>)
    ensures Ciphers(a + b) == Ciphers(a) + Ciphers(b)
    decreases |a|
  {
    if a == [] {
      assert a + b == b;
    } else {
      assert (a + b)[1..] == a[1..] + b;
      CiphersAppend(a[1..], b);
    }
  }

  /** Piece i was produced by the i-th push of session `st`, with the
      session's key and header and empty associated data. */
  ghost predicate SealedFrom(p: Primitives, st: Session, ps: seq<Piece>) {
    forall i :: 0 <= i < |ps| ==>
      ps[i].cipher == p.seal(st.key, st.header, st.counter + i, ps[i].plain, [], ps[i].tag)
  }

  /** The piece was produced by the push that session state `st` makes. */
  ghost predicate SealedAt(p: Primitives, st: Session, pc: Piece) {
    pc.cipher == p.seal(st.key, st.header, st.counter, pc.plain, [], pc.tag)
  }

  /** Every piece but the last is a full MESSAGE chunk. */
  ghost predicate FullMessages(ps: seq<Piece>) {
    forall i :: 0 <= i < |ps| ==> ps[i].tag == Message && |ps[i].plain| == CHUNK_SIZE
  }

  /** How a plaintext `rem` is cut into pieces by one session `st`: one
      piece per full CHUNK_SIZE block, each tagged MESSAGE, then one FINAL
      piece holding the remaining |rem| % CHUNK_SIZE bytes (possibly none);
      the plaintexts in order are `rem`, and piece i is the i-th push. */
  ghost predicate Chunked(p: Primitives, st: Session, rem: seq<byte>, ps: seq<Piece>) {
    && |ps| == |rem| / CHUNK_SIZE + 1
    && FullMessages(ps[..|ps| - 1])
    && ps[|ps| - 1].tag == Final
    && |ps[|ps| - 1].plain| == |rem| % CHUNK_SIZE
    && Plains(ps) == rem
    && SealedFrom(p, st, ps)
  }

  lemma DivStep(n: nat)
    requires n >= CHUNK_SIZE
    ensures (n - CHUNK_SIZE) / CHUNK_SIZE + 1 == n / CHUNK_SIZE
    ensures (n - CHUNK_SIZE) % CHUNK_SIZE == n % CHUNK_SIZE
  {
  }

  lemma MultipleOfChunk(k: nat)
    ensures (k * CHUNK_SIZE) / CHUNK_SIZE == k && (k * CHUNK_SIZE) % CHUNK_SIZE == 0
  {
  }

  /** A FINAL piece alone chunks a short plaintext. */
  lemma ChunkedFinal(p: Primitives, st: Session, pc: Piece)
    requires pc.tag == Final && |pc.plain| < CHUNK_SIZE
    requires pc.cipher == p.seal(st.key, st.header, st.counter, pc.plain, [], Final)
    ensures Chunked(p, st, pc.plain, [pc])
  {
    assert Plains([pc]) == pc.plain + Plains([]);
  }

  /** A full MESSAGE piece in front of a chunking by the next session state
      is a chunking of the longer plaintext. */
  lemma ChunkedMessage(p: Primitives, st: Session, pc: Piece, rem: seq<byte>, ps: seq<Piece>)
    requires pc.tag == Message && |pc.plain| == CHUNK_SIZE
    requires pc.cipher == p.seal(st.key, st.header, st.counter, pc.plain, [], Message)
    requires Chunked(p, Session(st.key, st.header, st.counter + 1), rem, ps)
    ensures Chunked(p, st, pc.plain + rem, [pc] + ps)
  {
    var qs := [pc] + ps;
    DivStep(|pc.plain + rem|);
    assert qs[1..] == ps;
    assert qs[..|qs| - 1] == [pc] + ps[..|ps| - 1];
    forall i | 0 <= i < |qs|
      ensures qs[i].cipher == p.seal(st.key, st.header, st.counter + i, qs[i].plain, [], qs[i].tag)
    {
      if i > 0 {
        assert qs[i] == ps[i - 1];
      }
    }
  }
}

=== FILE: decrypt.dfy ===
/** The decrypting endpoint: read the salt and the header, re-derive the key
    from the password and the embedded salt, start a pull session, then
    collect ciphertext into a buffer of up to ENCRYPTED_CHUNK_SIZE bytes and
    pull it whenever it is full or the input has ended, writing each
    plaintext out as soon as it is authenticated. */
module Decrypt {
  import opened Sodium
  import opened ByteSource
  import opened Container

  /** regenerate_chacha_key_from_password: the same Argon2id call the
      encrypting side makes, with the salt read from the container. */
  function RegenerateKey(p: Primitives, password: seq<byte>, salt: seq<byte>): (key: seq<byte>)
    requires Correct(p)
    ensures |key| == KEYBYTES
  {
    PwHash(p, 32, password, salt, OPSLIMIT_MODERATE, MEMLIMIT_MODERATE)
  }

  /** Why the endpoint gave up. Salt or header missing answer 400, a refused
      header 401, a failed pull 500. */
  datatype DecodeError = SaltMissing | HeaderMissing | InitPullFailed | PullFailed

  /** The outcome, with everything written to the output up to that point.
      The endpoint streams, so a failure can follow written plaintext. */
  datatype Decoded = Finished(written: seq<byte>) | Rejected(error: DecodeError, written: seq<byte>)

  /** One fread into the buffer, asking for as many bytes as the buffer
      still has room for. */
  function Fill(src: Source, buffer: seq<byte>): (r: (seq<byte>, Source))
    requires src.Valid() && |buffer| < ENCRYPTED_CHUNK_SIZE
    ensures r.1.Valid() && r.1.data == src.data && r.1.grain == src.grain
    // the buffer only grows, by the bytes consumed, and never past a full ciphertext chunk
    ensures r.0 + r.1.Remaining() == buffer + src.Remaining()
    ensures |buffer| <= |r.0| <= ENCRYPTED_CHUNK_SIZE
    // end-of-file only once the call tried to read past the end of the input
    ensures r.1.eof <==> |buffer| + |src.Remaining()| < ENCRYPTED_CHUNK_SIZE && src.grain > |src.Remaining()|
    // a call that does not reach end-of-file takes at least one byte
    ensures !r.1.eof ==> src.pos < r.1.pos
  {
    var (chunk, next) := Read(src, ENCRYPTED_CHUNK_SIZE - |buffer|);
    ReadSplitsRemaining(src, ENCRYPTED_CHUNK_SIZE - |buffer|);
    assert buffer + chunk + next.Remaining() == buffer + (chunk + next.Remaining());
    (buffer + chunk, next)
  }

  /** What the rest of a loop turn decides once the buffer is due. */
  datatype Delivery = Stop(result: Decoded) | Resume(session: Session, written: seq<byte>)

  /** The part of a loop turn that runs when the buffer is full or input
      has ended: an empty buffer ends the loop; otherwise the buffer is
      pulled, a failed pull aborts, the plaintext is written, and the loop
      ends on a FINAL tag or when input has ended. */
  function Deliver(p: Primitives, st: Session, buffer: seq<byte>, eofReached: bool, out: seq<byte>): (d: Delivery)
    // an empty buffer is never pulled, and it ends decoding without an error
    ensures buffer == [] ==> d == Stop(Finished(out))
    // a failed pull aborts, and nothing more is written
    ensures d == Stop(Rejected(PullFailed, out))
        <==> buffer != [] && p.open(st.key, st.header, st.counter, buffer, []).None?
    // a successful pull writes its plaintext after what was written before
    ensures buffer != [] && p.open(st.key, st.header, st.counter, buffer, []).Some? ==>
      var o := p.open(st.key, st.header, st.counter, buffer, []).value;
      && (d.Stop? ==> d.result == Finished(out + o.plain))
      && (d.Resume? ==> d.written == out + o.plain && d.session == Session(st.key, st.header, st.counter + 1))
      // and decoding goes on exactly when the tag is not FINAL and input has not ended
      && (d.Resume? <==> o.tag != Final && !eofReached)
    ensures d.Stop? ==> d.result.Finished? || d.result.error == PullFailed
  {
    if |buffer| == 0 then Stop(Finished(out))
    else
      match PullChunk(p, st, buffer, [])
      case None => Stop(Rejected(PullFailed, out))
      case Some(pulled) =>
        var (o, st') := pulled;
        var written := out + o.plain;
        if o.tag == Final then Stop(Finished(written))
        else if eofReached then Stop(Finished(written))
        else Resume(st', written)
  }

  /** The same step as the endpoint's text has it. `list($decrypted_chunk,
      $tag) = pull(...)` unpacks the `false` of a failed pull into two nulls,
      so the `$decrypted_chunk === false` test never holds: a chunk that
      fails to authenticate writes nothing (null is written as the empty
      string), its tag is not FINAL, the buffer is cleared, and the loop
      goes on with the session where it was. */
  function DeliverAsWritten(p: Primitives, st: Session, buffer: seq<byte>, eofReached: bool, out: seq<byte>): (d: Delivery)
    // whenever the pull succeeds, the step is the intended one
    ensures p.open(st.key, st.header, st.counter, buffer, []).Some? ==> d == Deliver(p, st, buffer, eofReached, out)
    // a failed pull is never reported: the step writes nothing and, before end of input, carries on
    ensures buffer != [] && p.open(st.key, st.header, st.counter, buffer, []).None? ==>
      d == (if eofReached then Stop(Finished(out)) else Resume(st, out))
    // so decoding as written never stops with an error
    ensures d.Stop? ==> d.result.Finished?
  {
    if |buffer| == 0 then Stop(Finished(out))
    else
      match PullChunk(p, st, buffer, [])
      case None =>
        if eofReached then Stop(Finished(out)) else Resume(st, out)
      case Some(pulled) =>
        var (o, st') := pulled;
        var written := out + o.plain;
        if o.tag == Final then Stop(Finished(written))
        else if eofReached then Stop(Finished(written))
        else Resume(st', written)
  }

  /** A chunk that fails to authenticate is where the two steps part: the
      intended one aborts with PullFailed, the written one goes on as if
      the chunk had been empty. */
  lemma FailedPullGoesUnnoticed(p: Primitives, st: Session, buffer: seq<byte>, out: seq<byte>)
    requires buffer != [] && p.open(st.key, st.header, st.counter, buffer, []).None?
    ensures Deliver(p, st, buffer, false, out) == Stop(Rejected(PullFailed, out))
    ensures DeliverAsWritten(p, st, buffer, false, out) == Resume(st, out)
    ensures DeliverAsWritten(p, st, buffer, true, out) == Stop(Finished(out))
  {
  }

  /** A concrete such chunk: with the toy primitives a buffer whose first
      byte is no tag fails to open, and the written step carries on. */
  lemma FailedPullExample()
    ensures Toy().open([], [], 0, [7], []).None?
    ensures Deliver(Toy(), Session([], [], 0), [7], false, []) == Stop(Rejected(PullFailed, []))
    ensures DeliverAsWritten(Toy(), Session([], [], 0), [7], false, []) == Resume(Session([], [], 0), [])
  {
    FailedPullGoesUnnoticed(Toy(), Session([], [], 0), [7], []);
  }

  /** The buffered pull loop, from the session, the read position, what is
      in the buffer and what has been written so far. */
  function PullLoop(p: Primitives, st: Session, src: Source, buffer: seq<byte>, out: seq<byte>): (r: Decoded)
    requires src.Valid() && |buffer| < ENCRYPTED_CHUNK_SIZE
    // output is only ever appended to
    ensures out <= r.written
    // the loop itself fails only on a pull
    ensures r.Finished? || r.error == PullFailed
    decreases |src.data| - src.pos
  {
    var (buf, next) := Fill(src, buffer);
    if |buf| >= ENCRYPTED_CHUNK_SIZE || next.eof then
      match Deliver(p, st, buf, next.eof, out)
      case Stop(r) => r
      case Resume(st', written) => PullLoop(p, st', next, [], written)
    else
      PullLoop(p, st, next, buf, out)
  }

  /** The same loop with the pull step as the endpoint has it. */
  function PullLoopAsWritten(p: Primitives, st: Session, src: Source, buffer: seq<byte>, out: seq<byte>): (r: Decoded)
    requires src.Valid() && |buffer| < ENCRYPTED_CHUNK_SIZE
    // output is only ever appended to, and no error is ever reported
    ensures r.Finished? && out <= r.written
    // wherever the intended loop finishes, the loop as written does the same
    ensures PullLoop(p, st, src, buffer, out).Finished? ==> r == PullLoop(p, st, src, buffer, out)
    decreases |src.data| - src.pos
  {
    var (buf, next) := Fill(src, buffer);
    if |buf| >= ENCRYPTED_CHUNK_SIZE || next.eof then
      match DeliverAsWritten(p, st, buf, next.eof, out)
      case Stop(r) => r
      case Resume(st', written) => PullLoopAsWritten(p, st', next, [], written)
    else
      PullLoopAsWritten(p, st, next, buf, out)
  }

  /** How far the endpoint gets before its pull loop: the error it answers
      with, or the pull session and the read position after the header. */
  datatype Opening = Refused(error: DecodeError) | Ready(session: Session, rest: Source)

  /** Read the salt and the header, re-derive the key, start the pull
      session. */
  function Prepare(p: Primitives, password: seq<byte>, input: seq<byte>, grain: nat): (o: Opening)
    requires Correct(p) && grain > 0
    // a salt read that comes back short is refused
    ensures o == Refused(SaltMissing) <==> |input| < SALTBYTES || grain < SALTBYTES
    // so is a header read that comes back short after a full salt
    ensures o == Refused(HeaderMissing)
        <==> (&& |input| >= SALTBYTES && grain >= SALTBYTES
              && (|input| < SALTBYTES + HEADERBYTES || grain < HEADERBYTES))
    // with correct primitives a full header is always accepted
    ensures o.Refused? ==> o.error in {SaltMissing, HeaderMissing}
    // and then the session is keyed from the password and the embedded salt,
    // started from the embedded header, reading on just after the header
    ensures o.Ready? ==>
      && o.session == InitPush(RegenerateKey(p, password, input[..SALTBYTES]), input[SALTBYTES..SALTBYTES + HEADERBYTES])
      && o.rest == Source(input, SALTBYTES + HEADERBYTES, false, grain) && o.rest.Valid()
  {
    var src := Open(input, grain);
    var (salt, afterSalt) := Read(src, SALTBYTES);
    if |salt| != SALTBYTES then Refused(SaltMissing)
    else
      var (header, afterHeader) := Read(afterSalt, HEADERBYTES);
      if |header| != HEADERBYTES then Refused(HeaderMissing)
      else
        var key := RegenerateKey(p, password, salt);
        match InitPull(p, header, key)
        case None => Refused(InitPullFailed)
        case Some(st) => Ready(st, afterHeader)
  }

  /** The whole endpoint on a request body `input` delivered `grain` bytes
      at most per read, with the intended abort on a failed pull. */
  function Decode(p: Primitives, password: seq<byte>, input: seq<byte>, grain: nat): (r: Decoded)
    requires Correct(p) && grain > 0
    // a salt read that comes back short is refused, before any output
    ensures r == Rejected(SaltMissing, []) <==> |input| < SALTBYTES || grain < SALTBYTES
    // so is a header read that comes back short after a full salt
    ensures r == Rejected(HeaderMissing, [])
        <==> (&& |input| >= SALTBYTES && grain >= SALTBYTES
              && (|input| < SALTBYTES + HEADERBYTES || grain < HEADERBYTES))
    // with correct primitives a full header is always accepted
    ensures !r.Rejected? || r.error != InitPullFailed
    ensures r.Rejected? && r.written != [] ==> r.error == PullFailed
  {
    match Prepare(p, password, input, grain)
    case Refused(e) => Rejected(e, [])
    case Ready(st, rest) => PullLoop(p, st, rest, [], [])
  }

  /** The whole endpoint as written. */
  function DecodeAsWritten(p: Primitives, password: seq<byte>, input: seq<byte>, grain: nat): (r: Decoded)
    requires Correct(p) && grain > 0
    // it refuses only a missing salt or header, and never after output
    ensures r.Rejected? ==> r.error in {SaltMissing, HeaderMissing} && r.written == []
    // it differs from the intended endpoint only where that one reports a failed pull
    ensures Decode(p, password, input, grain) != Rejected(PullFailed, Decode(p, password, input, grain).written) ==>
      r == Decode(p, password, input, grain)
  {
    match Prepare(p, password, input, grain)
    case Refused(e) => Rejected(e, [])
    case Ready(st, rest) => PullLoopAsWritten(p, st, rest, [], [])
  }

  /** A container whose first chunk does not authenticate: the intended
      endpoint rejects it with nothing written, the endpoint as written
      reports success with nothing written. */
  lemma FailedFirstChunkExample()
    ensures Decode(Toy(), [], Zeros(SALTBYTES + HEADERBYTES) + [7], 64) == Rejected(PullFailed, [])
    ensures DecodeAsWritten(Toy(), [], Zeros(SALTBYTES + HEADERBYTES) + [7], 64) == Finished([])
  {
    ToyIsCorrect();
    var input := Zeros(SALTBYTES + HEADERBYTES) + [7];
    var o := Prepare(Toy(), [], input, 64);
    var src := Source(input, SALTBYTES + HEADERBYTES, false, 64);
    assert o == Ready(o.session, src);
    assert src.Remaining() == [7];
    DrainsBuffer(Toy(), o.session, src, [], []);
    assert [] + src.Remaining() == [7];
  }

  /** Once salt and header are in, decoding is the pull loop on a session
      keyed from the password and the salt embedded in the input, started
      from the embedded header, reading from just after the header. */
  lemma DecodeUsesEmbeddedSalt(p: Primitives, password: seq<byte>, input: seq<byte>, grain: nat)
    requires Correct(p) && grain >= HEADERBYTES && |input| >= SALTBYTES + HEADERBYTES
    ensures Decode(p, password, input, grain)
         == PullLoop(p, InitPush(RegenerateKey(p, password, input[..SALTBYTES]), input[SALTBYTES..SALTBYTES + HEADERBYTES]),
                     Source(input, SALTBYTES + HEADERBYTES, false, grain), [], [])
  {
  }

  /** How the loop carries on once the buffer holds a full chunk `buf` and
      input has not ended. */
  function AfterFull(p: Primitives, st: Session, buf: seq<byte>, next: Source, out: seq<byte>): Decoded
    requires next.Valid()
  {
    match Deliver(p, st, buf, false, out)
    case Stop(r) => r
    case Resume(st', written) => PullLoop(p, st', next, [], written)
  }

  /** Whatever the read size, the buffer accumulates exactly the next
      bytes of input until it holds a full ciphertext chunk, and is then
      pulled without end-of-file having been reached. */
  lemma {:induction false} FillsBuffer(p: Primitives, st: Session, src: Source, buffer: seq<byte>, out: seq<byte>, chunk: seq<byte>)
    requires src.Valid() && |buffer| + |chunk| == ENCRYPTED_CHUNK_SIZE && chunk != []
    requires chunk <= src.Remaining()
    ensures PullLoop(p, st, src, buffer, out)
         == AfterFull(p, st, buffer + chunk, Source(src.data, src.pos + |chunk|, false, src.grain), out)
    decreases |src.data| - src.pos, 1
  {
    if |Fill(src, buffer).0| < ENCRYPTED_CHUNK_SIZE {
      FillsBufferPartly(p, st, src, buffer, out, chunk);
    } else {
      var j := FillTakes(src, buffer);
      FullStep(p, st, src, buffer, out);
      assert src.Remaining()[..j] == chunk;
    }
  }

  /** The step of `FillsBuffer` where one read leaves the buffer short of a
      chunk: the rest of the chunk is then collected from the new position. */
  lemma {:induction false} FillsBufferPartly(p: Primitives, st: Session, src: Source, buffer: seq<byte>, out: seq<byte>, chunk: seq<byte>)
    requires src.Valid() && |buffer| + |chunk| == ENCRYPTED_CHUNK_SIZE && chunk != []
    requires chunk <= src.Remaining()
    requires |Fill(src, buffer).0| < ENCRYPTED_CHUNK_SIZE
    ensures PullLoop(p, st, src, buffer, out)
         == AfterFull(p, st, buffer + chunk, Source(src.data, src.pos + |chunk|, false, src.grain), out)
    decreases |src.data| - src.pos, 0
  {
    var (buf, next) := Fill(src, buffer);
    var j := FillTakes(src, buffer);
    AccumulateStep(p, st, src, buffer, out);
    PrefixStep(buffer, chunk, src.Remaining(), j);
    FillsBuffer(p, st, next, buf, out, chunk[j..]);
  }

  /** Taking the first j bytes of a sequence that starts with `chunk`
      leaves the rest of `chunk` in front of what is left. */
  lemma PrefixStep(buffer: seq<byte>, chunk: seq<byte>, rem: seq<byte>, j: nat)
    requires chunk <= rem && j <= |chunk|
    ensures (buffer + rem[..j]) + chunk[j..] == buffer + chunk
    ensures chunk[j..] <= rem[j..]
  {
    assert rem[..j] == chunk[..j];
    assert chunk == chunk[..j] + chunk[j..];
  }

  /** A read that leaves the buffer short of a chunk without reaching
      end-of-file just goes round the loop again. */
  lemma AccumulateStep(p: Primitives, st: Session, src: Source, buffer: seq<byte>, out: seq<byte>)
    requires src.Valid() && |buffer| < ENCRYPTED_CHUNK_SIZE
    requires |Fill(src, buffer).0| < ENCRYPTED_CHUNK_SIZE && !Fill(src, buffer).1.eof
    ensures PullLoop(p, st, src, buffer, out) == PullLoop(p, st, Fill(src, buffer).1, Fill(src, buffer).0, out)
  {
  }

  /** A read that fills the buffer without reaching end-of-file has it pulled. */
  lemma FullStep(p: Primitives, st: Session, src: Source, buffer: seq<byte>, out: seq<byte>)
    requires src.Valid() && |buffer| < ENCRYPTED_CHUNK_SIZE
    requires |Fill(src, buffer).0| == ENCRYPTED_CHUNK_SIZE && !Fill(src, buffer).1.eof
    ensures PullLoop(p, st, src, buffer, out) == AfterFull(p, st, Fill(src, buffer).0, Fill(src, buffer).1, out)
  {
  }

  /** While input remains to fill the buffer, one Fill takes the next j
      bytes of it and does not reach end-of-file. */
  lemma FillTakes(src: Source, buffer: seq<byte>) returns (j: nat)
    requires src.Valid() && |buffer| < ENCRYPTED_CHUNK_SIZE
    requires |buffer| + |src.Remaining()| >= ENCRYPTED_CHUNK_SIZE
    ensures var (buf, next) := Fill(src, buffer);
      && j <= |src.Remaining()|
      && buf == buffer + src.Remaining()[..j]
      && next == Source(src.data, src.pos + j, false, src.grain)
      && next.Remaining() == src.Remaining()[j..]
  {
    var (buf, next) := Fill(src, buffer);
    j := |buf| - |buffer|;
    SplitAppend(buf, next.Remaining(), buffer, src.Remaining());
  }

  /** When what is left of the input does not fill the buffer, the reads
      run into end-of-file and the buffer is delivered with everything that
      was left; decoding then stops whatever the tag. */
  lemma {:induction false} DrainsBuffer(p: Primitives, st: Session, src: Source, buffer: seq<byte>, out: seq<byte>)
    requires src.Valid() && |buffer| + |src.Remaining()| < ENCRYPTED_CHUNK_SIZE
    ensures Deliver(p, st, buffer + src.Remaining(), true, out).Stop?
    ensures PullLoop(p, st, src, buffer, out) == Deliver(p, st, buffer + src.Remaining(), true, out).result
    decreases |src.data| - src.pos
  {
    var (buf, next) := Fill(src, buffer);
    if !next.eof {
      DrainsBuffer(p, st, next, buf, out);
      assert buf + next.Remaining() == buffer + src.Remaining();
    } else {
      assert next.Remaining() == [];
      assert buf == buffer + src.Remaining();
    }
  }

  /** At the end of input with nothing buffered the loop ends without an
      error, and without writing anything more, whether or not a FINAL tag
      was ever seen. */
  lemma EndOfInputFinishes(p: Primitives, st: Session, src: Source, out: seq<byte>)
    requires src.Valid() && src.Remaining() == []
    ensures PullLoop(p, st, src, [], out) == Finished(out)
  {
    DrainsBuffer(p, st, src, [], out);
  }

  /** A FINAL chunk that fills the buffer (64 KiB + ABYTES of ciphertext)
      stops decoding: whatever follows it in the input is never read,
      decrypted or written. A shorter chunk is pulled alone only when
      nothing follows it (`DrainsBuffer`); otherwise see
      `ShortFinalIsReadPast`. */
  lemma StopsAtFinal(p: Primitives, st: Session, src: Source, buffer: seq<byte>, out: seq<byte>, chunk: seq<byte>, rest: seq<byte>)
    requires src.Valid() && |buffer| < ENCRYPTED_CHUNK_SIZE
    requires src.Remaining() == chunk + rest && |buffer| + |chunk| == ENCRYPTED_CHUNK_SIZE
    requires p.open(st.key, st.header, st.counter, buffer + chunk, []).Some?
    requires p.open(st.key, st.header, st.counter, buffer + chunk, []).value.tag == Final
    ensures PullLoop(p, st, src, buffer, out)
         == Finished(out + p.open(st.key, st.header, st.counter, buffer + chunk, []).value.plain)
  {
    FillsBuffer(p, st, src, buffer, out, chunk);
  }

  /** The read that fills the buffer does not stop at a chunk boundary: a
      short FINAL chunk followed by more bytes is pulled together with
      them. Here an empty FINAL chunk is followed by a buffer's worth of
      zeros, and decoding writes 64 KiB of them rather than nothing. */
  lemma ShortFinalIsReadPast()
    ensures var input := ToySeal([], [], 0, [], [], Final) + Zeros(ENCRYPTED_CHUNK_SIZE);
      PullLoop(Toy(), Session([], [], 0), Source(input, 0, false, ENCRYPTED_CHUNK_SIZE), [], [])
        == Finished(Zeros(CHUNK_SIZE))
  {
    var input := ToySeal([], [], 0, [], [], Final) + Zeros(ENCRYPTED_CHUNK_SIZE);
    var src := Source(input, 0, false, ENCRYPTED_CHUNK_SIZE);
    var chunk := input[..ENCRYPTED_CHUNK_SIZE];
    assert src.Remaining() == input;
    FillsBuffer(Toy(), Session([], [], 0), src, [], [], chunk);
    assert [] + chunk == chunk;
    assert chunk[0] == 3;
    assert chunk[1..|chunk| - (ABYTES - 1)] == Zeros(CHUNK_SIZE);
  }

  /** A chunk that fails to authenticate aborts decoding with nothing more
      written, whatever follows it. */
  lemma PullFailureAborts(p: Primitives, st: Session, src: Source, buffer: seq<byte>, out: seq<byte>, chunk: seq<byte>, rest: seq<byte>)
    requires src.Valid() && |buffer| < ENCRYPTED_CHUNK_SIZE
    requires src.Remaining() == chunk + rest && |buffer| + |chunk| == ENCRYPTED_CHUNK_SIZE
    requires p.open(st.key, st.header, st.counter, buffer + chunk, []).None?
    ensures PullLoop(p, st, src, buffer, out) == Rejected(PullFailed, out)
  {
    FillsBuffer(p, st, src, buffer, out, chunk);
  }

  /** The endpoint as it runs, with its `eof_reached` flag and its breaks,
      and with the failed-pull test that the destructuring defeats: a pull
      that fails writes nothing and the loop goes on. */
  method DecodeStream(p: Primitives, password: seq<byte>, input: seq<byte>, grain: nat) returns (r: Decoded)
    requires Correct(p) && grain > 0
    ensures r == DecodeAsWritten(p, password, input, grain)
  {
    var src := Open(input, grain);
    var saltRead := Read(src, SALTBYTES);
    var salt := saltRead.0;
    src := saltRead.1;
    if |salt| != SALTBYTES {
      return Rejected(SaltMissing, []);
    }
    var headerRead := Read(src, HEADERBYTES);
    var header := headerRead.0;
    src := headerRead.1;
    if |header| != HEADERBYTES {
      return Rejected(HeaderMissing, []);
    }
    var key := RegenerateKey(p, password, salt);
    var pulled := InitPull(p, header, key);
    if pulled.None? {
      return Rejected(InitPullFailed, []);
    }
    var st := pulled.value;
    ghost var outcome := DecodeAsWritten(p, password, input, grain);
    var buffer: seq<byte> := [];
    var eofReached := false;
    var output: seq<byte> := [];
    while !eofReached
      invariant src.Valid() && |buffer| < ENCRYPTED_CHUNK_SIZE
      invariant !eofReached ==> PullLoopAsWritten(p, st, src, buffer, output) == outcome
      invariant eofReached ==> Finished(output) == outcome
      decreases |src.data| - src.pos, if eofReached then 0 else 1
    {
      ghost var stBefore, srcBefore, bufferBefore, outputBefore := st, src, buffer, output;
      var filled := Fill(src, buffer);
      buffer := filled.0;
      src := filled.1;
      if src.eof {
        eofReached := true;
      }
      if |buffer| >= ENCRYPTED_CHUNK_SIZE || eofReached {
        ghost var d := DeliverAsWritten(p, st, buffer, eofReached, output);
        assert PullLoopAsWritten(p, stBefore, srcBefore, bufferBefore, outputBefore)
            == (match d case Stop(r) => r case Resume(st', written) => PullLoopAsWritten(p, st', src, [], written));
        if |buffer| == 0 {
          break;
        }
        var result := PullChunk(p, st, buffer, []);
        if result.Some? {
          output := output + result.value.0.plain;
          if result.value.0.tag == Final {
            break;
          }
          st := result.value.1;
        }
        buffer := [];
      }
    }
    r := Finished(output);
  }
}

=== FILE: encrypt.dfy ===
/** The encrypting endpoint: derive a key from the password and a fresh salt,
    start a push session, write salt and header, then push the input in
    64 KiB pieces, tagging the last one FINAL and stopping after it. */
module Encrypt {
  import opened Sodium
  import opened ByteSource
  import opened Container

  datatype KeyData = KeyData(key: seq<byte>, salt: seq<byte>)

  /** generate_chacha_key_from_password. The salt libsodium's random_bytes
      would draw is a parameter; the key is a 32-byte Argon2id hash at the
      moderate cost limits. */
  function GenerateKey(p: Primitives, password: seq<byte>, salt: seq<byte>): (kd: KeyData)
    requires Correct(p) && |salt| == SALTBYTES
    ensures |kd.key| == KEYBYTES && kd.salt == salt
  {
    KeyData(PwHash(p, 32, password, salt, OPSLIMIT_MODERATE, MEMLIMIT_MODERATE), salt)
  }

  /** What one turn of the loop produces: the piece pushed, and the session
      and read position the next turn starts from. */
  datatype Turn = Turn(piece: Piece, session: Session, next: Source)

  /** One turn as the endpoint evidently intends it: collect the next
      CHUNK_SIZE bytes, reading until the piece is full or end-of-file is
      set; tag the piece FINAL when end-of-file was hit or the piece is
      short and MESSAGE otherwise; push it with empty associated data. */
  function PushTurn(p: Primitives, st: Session, src: Source): (t: Turn)
    requires Correct(p) && src.Valid() && !src.eof
    // the piece is the front of what remains, and reading moves past it
    ensures t.next.Valid() && t.next.data == src.data && t.next.grain == src.grain
    ensures t.piece.plain + t.next.Remaining() == src.Remaining()
    ensures |t.piece.plain| <= CHUNK_SIZE
    ensures t.piece.tag in {Message, Final}
    ensures t.piece.tag == Message <==> |t.piece.plain| == CHUNK_SIZE
    // a MESSAGE piece never leaves end-of-file set, so another turn follows it
    ensures t.piece.tag == Message ==> !t.next.eof
    // whatever the read size, the piece is FINAL iff less than a full chunk
    // remained (lazy end-of-file), and a FINAL piece takes all of it
    ensures t.piece.tag == Final <==> |src.Remaining()| < CHUNK_SIZE
    ensures t.piece.tag == Final ==> t.next.Remaining() == []
    // sealed as the session's next push, which advances the session by one
    ensures t.piece.cipher == p.seal(st.key, st.header, st.counter, t.piece.plain, [], t.piece.tag)
    ensures t.session == Session(st.key, st.header, st.counter + 1)
  {
    var (chunk, next) := ReadFull(src, CHUNK_SIZE, []);
    var tag := if next.eof || |chunk| < CHUNK_SIZE then Final else Message;
    var (cipher, st') := PushChunk(p, st, chunk, [], tag);
    assert src.Remaining() == src.Remaining()[..next.pos - src.pos] + src.Remaining()[next.pos - src.pos..];
    Turn(Piece(chunk, tag, cipher), st', next)
  }

  /** One turn as the endpoint has it: a single fread of up to CHUNK_SIZE
      bytes, tagged FINAL when that read hit end-of-file or came back short. */
  function PushTurnAsWritten(p: Primitives, st: Session, src: Source): (t: Turn)
    requires Correct(p) && src.Valid() && !src.eof
    ensures t.next.Valid() && t.next.data == src.data && t.next.grain == src.grain
    ensures t.piece.plain + t.next.Remaining() == src.Remaining()
    ensures t.piece.tag in {Message, Final}
    ensures t.piece.tag == Message <==> |t.piece.plain| == CHUNK_SIZE
    // when every read can deliver a whole chunk, this is the intended turn
    ensures src.grain >= CHUNK_SIZE ==> t == PushTurn(p, st, src)
    // a stream that delivers less than a chunk per read ends after one
    // piece, holding only what that one read returned
    ensures src.grain < CHUNK_SIZE ==>
      && t.piece.tag == Final
      && t.piece.plain == src.Remaining()[..if |src.Remaining()| < src.grain then |src.Remaining()| else src.grain]
    ensures t.piece.cipher == p.seal(st.key, st.header, st.counter, t.piece.plain, [], t.piece.tag)
    ensures t.session == Session(st.key, st.header, st.counter + 1)
  {
    var (chunk, next) := Read(src, CHUNK_SIZE);
    var tag := if next.eof || |chunk| < CHUNK_SIZE then Final else Message;
    var (cipher, st') := PushChunk(p, st, chunk, [], tag);
    ReadSplitsRemaining(src, CHUNK_SIZE);
    assert src.grain >= CHUNK_SIZE ==> ReadFull(src, CHUNK_SIZE, []) == ([] + chunk, next);
    assert [] + chunk == chunk;
    Turn(Piece(chunk, tag, cipher), st', next)
  }

  /** The read/tag/push loop, from the current session and read position,
      with the intended turn. It stops after a FINAL piece, or before
      reading when end-of-file is already set. */
  function PushLoop(p: Primitives, st: Session, src: Source): (ps: seq<Piece>)
    requires Correct(p) && src.Valid()
    // no read is made once end-of-file is known, and otherwise at least one piece is pushed
    ensures src.eof <==> ps == []
    decreases |src.data| - src.pos
  {
    if src.eof then []
    else
      var t := PushTurn(p, st, src);
      [t.piece] + (if t.piece.tag == Final then [] else PushLoop(p, t.session, t.next))
  }

  /** The same loop with the turn as the endpoint has it. */
  function PushLoopAsWritten(p: Primitives, st: Session, src: Source): (ps: seq<Piece>)
    requires Correct(p) && src.Valid()
    ensures src.eof <==> ps == []
    decreases |src.data| - src.pos
  {
    if src.eof then []
    else
      var t := PushTurnAsWritten(p, st, src);
      [t.piece] + (if t.piece.tag == Final then [] else PushLoopAsWritten(p, t.session, t.next))
  }

  /** When every read can deliver a whole chunk, the loop as written makes
      exactly the intended pushes. */
  lemma {:induction false} AsWrittenLoopWithFullReads(p: Primitives, st: Session, src: Source)
    requires Correct(p) && src.Valid() && src.grain >= CHUNK_SIZE
    ensures PushLoopAsWritten(p, st, src) == PushLoop(p, st, src)
    decreases |src.data| - src.pos
  {
    if !src.eof {
      var t := PushTurn(p, st, src);
      assert PushTurnAsWritten(p, st, src) == t;
      if t.piece.tag != Final {
        AsWrittenLoopWithFullReads(p, t.session, t.next);
      }
    }
  }

  /** The loop cuts what remains of the input exactly as `Chunked` describes:
      full MESSAGE pieces, then one short FINAL piece, nothing lost or
      repeated, piece i sealed as the session's i-th push. */
  lemma {:induction false} PushLoopChunks(p: Primitives, st: Session, src: Source)
    requires Correct(p) && src.Valid() && !src.eof
    ensures Chunked(p, st, src.Remaining(), PushLoop(p, st, src))
    decreases |src.data| - src.pos, 1
  {
    var t := PushTurn(p, st, src);
    PushLoopStep(p, st, src);
    if t.piece.tag == Final {
      ChunkedFinal(p, st, t.piece);
      assert [t.piece] + [] == [t.piece];
    } else {
      PushLoopChunksMessage(p, st, src);
    }
  }

  /** The step of `PushLoopChunks` after a full MESSAGE piece. */
  lemma {:induction false} PushLoopChunksMessage(p: Primitives, st: Session, src: Source)
    requires Correct(p) && src.Valid() && !src.eof
    requires PushTurn(p, st, src).piece.tag == Message
    ensures Chunked(p, st, src.Remaining(), PushLoop(p, st, src))
    decreases |src.data| - src.pos, 0
  {
    var t := PushTurn(p, st, src);
    PushLoopStep(p, st, src);
    PushLoopChunks(p, t.session, t.next);
    ChunkedMessage(p, st, t.piece, t.next.Remaining(), PushLoop(p, t.session, t.next));
  }

  /** Whatever the read size, the loop writes exactly one FINAL piece,
      and it is the last: every piece before it is MESSAGE. */
  lemma {:induction false} OneFinalLast(p: Primitives, st: Session, src: Source)
    requires Correct(p) && src.Valid() && !src.eof
    ensures var ps := PushLoop(p, st, src);
      && ps[|ps| - 1].tag == Final
      && forall i :: 0 <= i < |ps| - 1 ==> ps[i].tag == Message
    decreases |src.data| - src.pos
  {
    var t := PushTurn(p, st, src);
    PushLoopStep(p, st, src);
    if t.piece.tag != Final {
      var rest := PushLoop(p, t.session, t.next);
      OneFinalLast(p, t.session, t.next);
      var ps := [t.piece] + rest;
      forall i | 0 <= i < |ps| - 1
        ensures ps[i].tag == Message
      {
        if i > 0 {
          assert ps[i] == rest[i - 1];
        }
      }
      assert ps[|ps| - 1] == rest[|rest| - 1];
    }
  }

  /** One turn of the loop pushes its piece before all later turns. */
  lemma PushLoopStep(p: Primitives, st: Session, src: Source)
    requires Correct(p) && src.Valid() && !src.eof
    ensures var t := PushTurn(p, st, src);
      PushLoop(p, st, src) == [t.piece] + (if t.piece.tag == Final then [] else PushLoop(p, t.session, t.next))
  {
  }

  /** The pushes the encoder makes for `input`. */
  function Pieces(p: Primitives, password: seq<byte>, salt: seq<byte>, header: seq<byte>, input: seq<byte>, grain: nat): seq<Piece>
    requires Correct(p) && |salt| == SALTBYTES && grain > 0
  {
    PushLoop(p, InitPush(GenerateKey(p, password, salt).key, header), Open(input, grain))
  }

  /** The pushes the endpoint as written makes for `input`. */
  function PiecesAsWritten(p: Primitives, password: seq<byte>, salt: seq<byte>, header: seq<byte>, input: seq<byte>, grain: nat): seq<Piece>
    requires Correct(p) && |salt| == SALTBYTES && grain > 0
  {
    PushLoopAsWritten(p, InitPush(GenerateKey(p, password, salt).key, header), Open(input, grain))
  }

  /** The whole response body: salt, header, then every ciphertext chunk.
      `salt` and `header` stand for the randomness of random_bytes and
      init_push. */
  function Encode(p: Primitives, password: seq<byte>, salt: seq<byte>, header: seq<byte>, input: seq<byte>, grain: nat): (out: seq<byte>)
    requires Correct(p) && |salt| == SALTBYTES && |header| == HEADERBYTES && grain > 0
    ensures |out| >= SALTBYTES + HEADERBYTES
    ensures out[..SALTBYTES] == salt
    ensures out[SALTBYTES..SALTBYTES + HEADERBYTES] == header
  {
    var kd := GenerateKey(p, password, salt);
    kd.salt + header + Ciphers(PushLoop(p, InitPush(kd.key, header), Open(input, grain)))
  }

  /** The response body the endpoint as written produces. */
  function EncodeAsWritten(p: Primitives, password: seq<byte>, salt: seq<byte>, header: seq<byte>, input: seq<byte>, grain: nat): (out: seq<byte>)
    requires Correct(p) && |salt| == SALTBYTES && |header| == HEADERBYTES && grain > 0
    ensures |out| >= SALTBYTES + HEADERBYTES
    ensures out[..SALTBYTES] == salt
    ensures out[SALTBYTES..SALTBYTES + HEADERBYTES] == header
    // when every read can deliver a whole chunk, it is the intended container
    ensures grain >= CHUNK_SIZE ==> out == Encode(p, password, salt, header, input, grain)
  {
    var kd := GenerateKey(p, password, salt);
    var st := InitPush(kd.key, header);
    assert grain >= CHUNK_SIZE ==> PushLoopAsWritten(p, st, Open(input, grain)) == PushLoop(p, st, Open(input, grain)) by {
      if grain >= CHUNK_SIZE {
        AsWrittenLoopWithFullReads(p, st, Open(input, grain));
      }
    }
    kd.salt + header + Ciphers(PushLoopAsWritten(p, st, Open(input, grain)))
  }

  /** The container is the salt, the header, and the input with ABYTES of
      overhead for each of its |input| / CHUNK_SIZE + 1 chunks. */
  lemma EncodeLength(p: Primitives, password: seq<byte>, salt: seq<byte>, header: seq<byte>, input: seq<byte>, grain: nat)
    requires Correct(p) && |salt| == SALTBYTES && |header| == HEADERBYTES && grain > 0
    ensures |Encode(p, password, salt, header, input, grain)|
         == SALTBYTES + HEADERBYTES + |input| + ABYTES * (|input| / CHUNK_SIZE + 1)
  {
    var st := InitPush(GenerateKey(p, password, salt).key, header);
    var ps := PushLoop(p, st, Open(input, grain));
    PushLoopChunks(p, st, Open(input, grain));
    assert |ps| == |input| / CHUNK_SIZE + 1;
    CiphersLength(p, st, ps);
  }

  /** A run of pieces sealed by one session is ABYTES longer per piece than its plaintext. */
  lemma {:induction false} CiphersLength(p: Primitives, st: Session, ps: seq<Piece>)
    requires Correct(p) && SealedFrom(p, st, ps)
    ensures |Ciphers(ps)| == |Plains(ps)| + ABYTES * |ps|
    decreases |ps|
  {
    if ps != [] {
      var st' := Session(st.key, st.header, st.counter + 1);
      assert ps[0].cipher == p.seal(st.key, st.header, st.counter, ps[0].plain, [], ps[0].tag);
      assert SealedFrom(p, st', ps[1..]) by {
        forall i | 0 <= i < |ps[1..]|
          ensures ps[1..][i].cipher == p.seal(st'.key, st'.header, st'.counter + i, ps[1..][i].plain, [], ps[1..][i].tag)
        {
          assert ps[1..][i] == ps[i + 1];
        }
      }
      CiphersLength(p, st', ps[1..]);
    }
  }

  /** Empty input still gives exactly one piece: an empty FINAL one. */
  lemma EmptyInputOneFinalPiece(p: Primitives, password: seq<byte>, salt: seq<byte>, header: seq<byte>, grain: nat)
    requires Correct(p) && |salt| == SALTBYTES && |header| == HEADERBYTES && grain > 0
    ensures var ps := Pieces(p, password, salt, header, [], grain);
      |ps| == 1 && ps[0].tag == Final && ps[0].plain == []
  {
    var t := PushTurn(p, InitPush(GenerateKey(p, password, salt).key, header), Open([], grain));
    assert t.piece.plain + t.next.Remaining() == [];
  }

  /** As written, a stream that delivers less than CHUNK_SIZE bytes per read ends the
      container after the first read: one FINAL piece holding only what
      that read returned, and the rest of the input is never pushed. */
  lemma ShortReadsEndTheStream(p: Primitives, password: seq<byte>, salt: seq<byte>, header: seq<byte>, input: seq<byte>, grain: nat)
    requires Correct(p) && |salt| == SALTBYTES && |header| == HEADERBYTES
    requires 0 < grain < CHUNK_SIZE
    ensures var ps := PiecesAsWritten(p, password, salt, header, input, grain);
      && |ps| == 1 && ps[0].tag == Final
      && ps[0].plain == input[..if |input| < grain then |input| else grain]
  {
  }

  /** An input of k full chunks gives k MESSAGE pieces followed by an empty FINAL one. */
  lemma ExactMultipleEndsWithEmptyFinal(p: Primitives, password: seq<byte>, salt: seq<byte>, header: seq<byte>, input: seq<byte>, grain: nat, k: nat)
    requires Correct(p) && |salt| == SALTBYTES && |header| == HEADERBYTES && grain > 0
    requires |input| == k * CHUNK_SIZE
    ensures var ps := Pieces(p, password, salt, header, input, grain);
      && |ps| == k + 1
      && ps[k].tag == Final && ps[k].plain == []
      && forall i :: 0 <= i < k ==> ps[i].tag == Message && |ps[i].plain| == CHUNK_SIZE
  {
    var ps := Pieces(p, password, salt, header, input, grain);
    PushLoopChunks(p, InitPush(GenerateKey(p, password, salt).key, header), Open(input, grain));
    MultipleOfChunk(k);
    assert |ps| == k + 1;
    forall i | 0 <= i < k
      ensures ps[i].tag == Message && |ps[i].plain| == CHUNK_SIZE
    {
      assert ps[i] == ps[..k][i];
    }
  }

  /** One turn of the loop as written writes its ciphertext before all
      later turns. */
  lemma CiphersStep(p: Primitives, st: Session, src: Source)
    requires Correct(p) && src.Valid() && !src.eof
    ensures var t := PushTurnAsWritten(p, st, src);
      Ciphers(PushLoopAsWritten(p, st, src))
        == t.piece.cipher + (if t.piece.tag == Final then [] else Ciphers(PushLoopAsWritten(p, t.session, t.next)))
  {
    var t := PushTurnAsWritten(p, st, src);
    var rest := if t.piece.tag == Final then [] else PushLoopAsWritten(p, t.session, t.next);
    assert PushLoopAsWritten(p, st, src) == [t.piece] + rest;
    assert ([t.piece] + rest)[1..] == rest;
  }

  /** Writing one turn's ciphertext keeps "written so far, then the
      ciphertexts of the remaining turns" equal to the whole body. */
  lemma WriteStep(p: Primitives, st: Session, src: Source, output: seq<byte>, body: seq<byte>)
    requires Correct(p) && src.Valid() && !src.eof
    requires output + Ciphers(PushLoopAsWritten(p, st, src)) == body
    ensures var t := PushTurnAsWritten(p, st, src);
      if t.piece.tag == Final then output + t.piece.cipher == body
      else output + t.piece.cipher + Ciphers(PushLoopAsWritten(p, t.session, t.next)) == body
  {
    CiphersStep(p, st, src);
  }

  /** The loop as the endpoint runs it, one fread per turn, writing to the
      output as it goes. */
  method EncodeStream(p: Primitives, password: seq<byte>, salt: seq<byte>, header: seq<byte>, input: seq<byte>, grain: nat)
    returns (output: seq<byte>)
    requires Correct(p) && |salt| == SALTBYTES && |header| == HEADERBYTES && grain > 0
    ensures output == EncodeAsWritten(p, password, salt, header, input, grain)
    ensures grain >= CHUNK_SIZE ==> output == Encode(p, password, salt, header, input, grain)
  {
    var keyData := GenerateKey(p, password, salt);
    var st := InitPush(keyData.key, header);
    var src := Open(input, grain);
    output := keyData.salt + header;
    ghost var body := EncodeAsWritten(p, password, salt, header, input, grain);
    assert output + Ciphers(PushLoopAsWritten(p, st, src)) == body;
    var finalChunk := false;
    while !src.eof
      invariant src.Valid()
      invariant output + Ciphers(PushLoopAsWritten(p, st, src)) == body
      decreases |src.data| - src.pos
    {
      var turn := PushTurnAsWritten(p, st, src);
      WriteStep(p, st, src, output, body);
      finalChunk := turn.piece.tag == Final;
      output := output + turn.piece.cipher;
      st := turn.session;
      src := turn.next;
      if finalChunk {
        break;
      }
    }
  }
}

=== FILE: roundtrip.dfy ===
/** What the two endpoints promise together: a container the encrypting
    endpoint produced decrypts, with the same password, to exactly the
    plaintext it was made from, whatever the decrypting side's read size;
    and what happens when the container is cut short. */
module RoundTrip {
  import opened Sodium
  import opened ByteSource
  import opened Container
  import opened Encrypt
  import opened Decrypt

  /** Both sides derive the same key from the same password and salt. */
  lemma KeysAgree(p: Primitives, password: seq<byte>, salt: seq<byte>)
    requires Correct(p) && |salt| == SALTBYTES
    ensures RegenerateKey(p, password, salt) == GenerateKey(p, password, salt).key
  {
  }

  /** Pulling a run of full MESSAGE chunks that session `st` pushed, from an
      empty buffer, writes their plaintexts in order (`out2`) and leaves the
      loop with the session advanced past them (`st2`) and the read
      position just after their ciphertexts (`src2`). The three end states
      are parameters pinned by equalities rather than expressions in the
      ensures, which keeps each proof step cheap for the solver. */
  lemma {:induction false} PullMessages(p: Primitives, st: Session, src: Source, ps: seq<Piece>, rest: seq<byte>, out: seq<byte>,
                                         st2: Session, src2: Source, out2: seq<byte>)
    requires Correct(p) && src.Valid() && !src.eof
    requires FullMessages(ps) && SealedFrom(p, st, ps)
    requires src.Remaining() == Ciphers(ps) + rest
    requires st2 == Session(st.key, st.header, st.counter + |ps|)
    requires src2 == Source(src.data, src.pos + |Ciphers(ps)|, false, src.grain)
    requires out2 == out + Plains(ps)
    ensures src2.Valid() && src2.Remaining() == rest
    ensures PullLoop(p, st, src, [], out) == PullLoop(p, st2, src2, [], out2)
    decreases |ps|, 1
  {
    if ps == [] {
      assert out + Plains(ps) == out;
    } else {
      PullMessagesCons(p, st, src, ps, rest, out, st2, src2, out2);
    }
  }

  /** The step of `PullMessages` for a non-empty run: the first chunk, then
      the rest of the run from the next session state. */
  lemma {:induction false} PullMessagesCons(p: Primitives, st: Session, src: Source, ps: seq<Piece>, rest: seq<byte>, out: seq<byte>,
                                             st2: Session, src2: Source, out2: seq<byte>)
    requires Correct(p) && src.Valid() && !src.eof
    requires FullMessages(ps) && SealedFrom(p, st, ps) && ps != []
    requires src.Remaining() == Ciphers(ps) + rest
    requires st2 == Session(st.key, st.header, st.counter + |ps|)
    requires src2 == Source(src.data, src.pos + |Ciphers(ps)|, false, src.grain)
    requires out2 == out + Plains(ps)
    ensures src2.Valid() && src2.Remaining() == rest
    ensures PullLoop(p, st, src, [], out) == PullLoop(p, st2, src2, [], out2)
    decreases |ps|, 0
  {
    var pc := ps[0];
    var st' := Session(st.key, st.header, st.counter + 1);
    PiecesCons(ps, out, rest);
    var next := PullMessage(p, st, src, pc, Ciphers(ps[1..]) + rest, out);
    MessagesShift(p, st, ps);
    PullMessages(p, st', next, ps[1..], rest, out + pc.plain, st2, src2, out2);
  }

  /** Splitting the first piece off a run, for the ciphertext in front of
      the rest of the input and for the plaintext written after `out`. */
  lemma PiecesCons(ps: seq<Piece>, out: seq<byte>, rest: seq<byte>)
    requires ps != []
    ensures Ciphers(ps) + rest == ps[0].cipher + (Ciphers(ps[1..]) + rest)
    ensures |Ciphers(ps)| == |ps[0].cipher| + |Ciphers(ps[1..])|
    ensures out + Plains(ps) == out + ps[0].plain + Plains(ps[1..])
  {
    var c, q := ps[0].cipher, Ciphers(ps[1..]);
    assert Ciphers(ps) == c + q;
    assert (c + q) + rest == c + (q + rest);
    var a, b := ps[0].plain, Plains(ps[1..]);
    assert Plains(ps) == a + b;
    assert out + (a + b) == out + a + b;
  }

  /** Pulling one full MESSAGE chunk the session pushed writes its
      plaintext and goes round again from just after it. */
  lemma PullMessage(p: Primitives, st: Session, src: Source, pc: Piece, rest: seq<byte>, out: seq<byte>) returns (next: Source)
    requires Correct(p) && src.Valid()
    requires pc.tag == Message && |pc.plain| == CHUNK_SIZE
    requires pc.cipher == p.seal(st.key, st.header, st.counter, pc.plain, [], Message)
    requires src.Remaining() == pc.cipher + rest
    ensures next == Source(src.data, src.pos + |pc.cipher|, false, src.grain) && next.Valid()
    ensures next.Remaining() == rest
    ensures PullLoop(p, st, src, [], out)
         == PullLoop(p, Session(st.key, st.header, st.counter + 1), next, [], out + pc.plain)
  {
    next := Source(src.data, src.pos + |pc.cipher|, false, src.grain);
    assert next.Remaining() == rest by {
      assert src.data[src.pos..][|pc.cipher|..] == src.data[src.pos + |pc.cipher|..];
    }
    FillsBuffer(p, st, src, [], out, pc.cipher);
    assert [] + pc.cipher == pc.cipher;
    assert Deliver(p, st, pc.cipher, false, out) == Resume(Session(st.key, st.header, st.counter + 1), out + pc.plain);
  }

  /** The tail of a run of full MESSAGE pieces sealed by `st` is such a
      run sealed by the next session state. */
  lemma MessagesShift(p: Primitives, st: Session, ps: seq<Piece>)
    requires FullMessages(ps) && SealedFrom(p, st, ps) && ps != []
    ensures FullMessages(ps[1..])
    ensures SealedFrom(p, Session(st.key, st.header, st.counter + 1), ps[1..])
  {
    var st' := Session(st.key, st.header, st.counter + 1);
    forall i | 0 <= i < |ps[1..]|
      ensures ps[1..][i].cipher == p.seal(st'.key, st'.header, st'.counter + i, ps[1..][i].plain, [], ps[1..][i].tag)
    {
      assert ps[1..][i] == ps[i + 1];
    }
  }

  /** Pulling the ciphertext of one short piece the session pushed, with
      nothing after it, writes its plaintext and ends decoding. */
  lemma PullLast(p: Primitives, st: Session, src: Source, pc: Piece, out: seq<byte>)
    requires Correct(p) && src.Valid() && src.Remaining() == pc.cipher
    requires SealedAt(p, st, pc) && |pc.plain| < CHUNK_SIZE
    ensures PullLoop(p, st, src, [], out) == Finished(out + pc.plain)
  {
    DrainsBuffer(p, st, src, [], out);
    assert [] + src.Remaining() == pc.cipher;
  }

  /** The encoder's output as salt, header, the ciphertexts of the full
      MESSAGE pieces, and the ciphertext of the FINAL piece. */
  lemma EncodeLayout(p: Primitives, password: seq<byte>, salt: seq<byte>, header: seq<byte>, input: seq<byte>, grain: nat)
    returns (st: Session, msgs: seq<Piece>, last: Piece)
    requires Correct(p) && |salt| == SALTBYTES && |header| == HEADERBYTES && grain > 0
    ensures st == InitPush(RegenerateKey(p, password, salt), header)
    ensures FullMessages(msgs) && SealedFrom(p, st, msgs)
    ensures |msgs| == |input| / CHUNK_SIZE
    ensures last.tag == Final && |last.plain| == |input| % CHUNK_SIZE
    ensures SealedAt(p, Session(st.key, st.header, st.counter + |msgs|), last)
    ensures Plains(msgs) + last.plain == input
    ensures Encode(p, password, salt, header, input, grain) == salt + header + (Ciphers(msgs) + last.cipher)
  {
    st := InitPush(GenerateKey(p, password, salt).key, header);
    var ps := PushLoop(p, st, Open(input, grain));
    PushLoopChunks(p, st, Open(input, grain));
    msgs := ps[..|ps| - 1];
    last := ps[|ps| - 1];
    assert ps == msgs + [last];
    forall i | 0 <= i < |msgs|
      ensures msgs[i].cipher == p.seal(st.key, st.header, st.counter + i, msgs[i].plain, [], msgs[i].tag)
    {
      assert msgs[i] == ps[i];
    }
    PlainsAppend(msgs, [last]);
    CiphersAppend(msgs, [last]);
    assert Plains([last]) == last.plain + Plains([]);
    assert Ciphers([last]) == last.cipher + Ciphers([]);
    assert salt + header + Ciphers(ps) == salt + header + (Ciphers(msgs) + last.cipher);
  }

  /** The read position just past `front`, when `front` is what comes next. */
  lemma Skip(src: Source, front: seq<byte>, rest: seq<byte>) returns (next: Source)
    requires src.Valid() && src.Remaining() == front + rest
    ensures next == Source(src.data, src.pos + |front|, false, src.grain)
    ensures next.Valid() && next.Remaining() == rest
  {
    next := Source(src.data, src.pos + |front|, false, src.grain);
    assert src.data[src.pos..][|front|..] == src.data[next.pos..];
  }

  lemma EmptyPrefix(s: seq<byte>)
    ensures [] + s == s
  {
  }

  /** Right after salt and header, what remains to read is the body. */
  lemma AfterPrefix(salt: seq<byte>, header: seq<byte>, body: seq<byte>, grain: nat)
    requires |salt| == SALTBYTES && |header| == HEADERBYTES && grain > 0
    ensures var src := Source(salt + header + body, SALTBYTES + HEADERBYTES, false, grain);
      src.Valid() && src.Remaining() == body
  {
    assert (salt + header + body)[SALTBYTES + HEADERBYTES..] == body;
  }

  /** Decoding an input that starts with `salt` and `header` runs the pull
      loop, keyed from the password and that salt, on what follows. */
  lemma DecodeAfterPrefix(p: Primitives, password: seq<byte>, salt: seq<byte>, header: seq<byte>, body: seq<byte>, grain: nat)
    requires Correct(p) && |salt| == SALTBYTES && |header| == HEADERBYTES && grain >= HEADERBYTES
    ensures var input := salt + header + body;
      && Source(input, SALTBYTES + HEADERBYTES, false, grain).Remaining() == body
      && Decode(p, password, input, grain)
         == PullLoop(p, InitPush(RegenerateKey(p, password, salt), header),
                     Source(input, SALTBYTES + HEADERBYTES, false, grain), [], [])
  {
    var input := salt + header + body;
    DecodeUsesEmbeddedSalt(p, password, input, grain);
    assert input[..SALTBYTES] == salt;
    assert input[SALTBYTES..SALTBYTES + HEADERBYTES] == header;
    assert input[SALTBYTES + HEADERBYTES..] == body;
  }

  /** Decrypting what was encrypted with the same password gives back the
      plaintext, for any input, whenever the encoder's reads deliver whole
      chunks and the decoder's reads deliver at least a header's worth. */
  lemma RoundTrip(p: Primitives, password: seq<byte>, salt: seq<byte>, header: seq<byte>, input: seq<byte>,
                  encodeGrain: nat, decodeGrain: nat)
    requires Correct(p) && |salt| == SALTBYTES && |header| == HEADERBYTES
    requires encodeGrain > 0 && decodeGrain >= HEADERBYTES
    ensures Decode(p, password, Encode(p, password, salt, header, input, encodeGrain), decodeGrain) == Finished(input)
  {
    var st, msgs, last := EncodeLayout(p, password, salt, header, input, encodeGrain);
    DecodeLayout(p, password, salt, header, st, msgs, last, decodeGrain);
  }

  /** Decoding salt, header, a run of full MESSAGE chunks and one short
      chunk, all pushed by the session the password and salt key, writes
      every plaintext in order and finishes. */
  lemma DecodeLayout(p: Primitives, password: seq<byte>, salt: seq<byte>, header: seq<byte>,
                     st: Session, msgs: seq<Piece>, last: Piece, decodeGrain: nat)
    requires Correct(p) && |salt| == SALTBYTES && |header| == HEADERBYTES && decodeGrain >= HEADERBYTES
    requires st == InitPush(RegenerateKey(p, password, salt), header)
    requires FullMessages(msgs) && SealedFrom(p, st, msgs)
    requires |last.plain| < CHUNK_SIZE
    requires SealedAt(p, Session(st.key, st.header, st.counter + |msgs|), last)
    ensures Decode(p, password, salt + header + (Ciphers(msgs) + last.cipher), decodeGrain)
         == Finished(Plains(msgs) + last.plain)
  {
    var container := salt + header + (Ciphers(msgs) + last.cipher);
    AfterPrefix(salt, header, Ciphers(msgs) + last.cipher, decodeGrain);
    PullAll(p, st, Source(container, SALTBYTES + HEADERBYTES, false, decodeGrain), msgs, last,
            Session(st.key, st.header, st.counter + |msgs|));
    DecodeAfterPrefix(p, password, salt, header, Ciphers(msgs) + last.cipher, decodeGrain);
  }

  /** The pull loop on a run of full MESSAGE chunks and one short chunk,
      all pushed by `st` in order, writes every plaintext and finishes. */
  lemma PullAll(p: Primitives, st: Session, src: Source, msgs: seq<Piece>, last: Piece, stN: Session)
    requires Correct(p) && src.Valid() && !src.eof
    requires FullMessages(msgs) && SealedFrom(p, st, msgs)
    requires stN == Session(st.key, st.header, st.counter + |msgs|)
    requires |last.plain| < CHUNK_SIZE && SealedAt(p, stN, last)
    requires src.Remaining() == Ciphers(msgs) + last.cipher
    ensures PullLoop(p, st, src, [], []) == Finished(Plains(msgs) + last.plain)
  {
    var tail := Skip(src, Ciphers(msgs), last.cipher);
    PullLast(p, stN, tail, last, Plains(msgs));
    EmptyPrefix(Plains(msgs));
    PullMessages(p, st, src, msgs, last.cipher, [], stN, tail, Plains(msgs));
  }

  /** A container cut short by its whole last chunk still decodes without
      an error: the loop meets end-of-file with an empty buffer and reports
      success, having written only the full chunks. The missing FINAL tag
      goes unnoticed. */
  lemma TruncationGoesUnreported(p: Primitives, password: seq<byte>, salt: seq<byte>, header: seq<byte>,
                                 input: seq<byte>, encodeGrain: nat, decodeGrain: nat)
    requires Correct(p) && |salt| == SALTBYTES && |header| == HEADERBYTES
    requires encodeGrain > 0 && decodeGrain >= HEADERBYTES
    ensures var container := Encode(p, password, salt, header, input, encodeGrain);
      && |container| >= SALTBYTES + HEADERBYTES + |input| % CHUNK_SIZE + ABYTES
      && Decode(p, password, container[..|container| - (|input| % CHUNK_SIZE + ABYTES)], decodeGrain)
         == Finished(input[..|input| - |input| % CHUNK_SIZE])
  {
    var st, msgs, last := EncodeLayout(p, password, salt, header, input, encodeGrain);
    DropLast(salt + header, Ciphers(msgs), last.cipher);
    DropLast(Plains(msgs), [], last.plain);
    DecodeMessagesOnly(p, password, salt, header, st, msgs, decodeGrain);
  }

  /** Cutting `last` off the end of `front + (body + last)` leaves `front + (body + [])`. */
  lemma DropLast(front: seq<byte>, body: seq<byte>, last: seq<byte>)
    ensures |front + (body + last)| - |last| == |front + (body + [])|
    ensures (front + (body + last))[..|front + (body + last)| - |last|] == front + (body + [])
  {
    assert body + [] == body;
  }

  /** Decoding salt, header and a run of full MESSAGE chunks pushed by the
      session the password and salt key, with nothing after them, writes
      every plaintext and reports success. */
  lemma DecodeMessagesOnly(p: Primitives, password: seq<byte>, salt: seq<byte>, header: seq<byte>,
                           st: Session, msgs: seq<Piece>, decodeGrain: nat)
    requires Correct(p) && |salt| == SALTBYTES && |header| == HEADERBYTES && decodeGrain >= HEADERBYTES
    requires st == InitPush(RegenerateKey(p, password, salt), header)
    requires FullMessages(msgs) && SealedFrom(p, st, msgs)
    ensures Decode(p, password, salt + header + (Ciphers(msgs) + []), decodeGrain) == Finished(Plains(msgs) + [])
  {
    var container := salt + header + (Ciphers(msgs) + []);
    DecodeAfterPrefix(p, password, salt, header, Ciphers(msgs) + [], decodeGrain);
    var src := Source(container, SALTBYTES + HEADERBYTES, false, decodeGrain);
    var stN := Session(st.key, st.header, st.counter + |msgs|);
    var tail := Source(container, src.pos + |Ciphers(msgs)|, false, decodeGrain);
    EmptyPrefix(Plains(msgs));
    PullMessages(p, st, src, msgs, [], [], stN, tail, Plains(msgs));
    EndOfInputFinishes(p, stN, tail, Plains(msgs));
    DropLast(Plains(msgs), [], []);
  }

  /** When the encoder's reads come back shorter than a chunk, the
      container the endpoint as written produces holds only what the first
      read delivered, and decoding it, by either decoder, reports success
      with that prefix of the input. */
  lemma ShortReadsLoseTheRest(p: Primitives, password: seq<byte>, salt: seq<byte>, header: seq<byte>, input: seq<byte>,
                              encodeGrain: nat, decodeGrain: nat)
    requires Correct(p) && |salt| == SALTBYTES && |header| == HEADERBYTES
    requires 0 < encodeGrain < CHUNK_SIZE && decodeGrain >= HEADERBYTES
    ensures Decode(p, password, EncodeAsWritten(p, password, salt, header, input, encodeGrain), decodeGrain)
         == Finished(input[..if |input| < encodeGrain then |input| else encodeGrain])
    ensures DecodeAsWritten(p, password, EncodeAsWritten(p, password, salt, header, input, encodeGrain), decodeGrain)
         == Finished(input[..if |input| < encodeGrain then |input| else encodeGrain])
  {
    var st, msgs, last := ShortLayout(p, password, salt, header, input, encodeGrain);
    DecodeLayout(p, password, salt, header, st, msgs, last, decodeGrain);
  }

  /** With short reads the output of the endpoint as written is salt, header and the
      ciphertext of one FINAL piece holding what the first read returned,
      written as a run of no MESSAGE pieces followed by that piece. */
  lemma ShortLayout(p: Primitives, password: seq<byte>, salt: seq<byte>, header: seq<byte>, input: seq<byte>, grain: nat)
    returns (st: Session, msgs: seq<Piece>, last: Piece)
    requires Correct(p) && |salt| == SALTBYTES && |header| == HEADERBYTES && 0 < grain < CHUNK_SIZE
    ensures st == InitPush(RegenerateKey(p, password, salt), header)
    ensures msgs == [] && FullMessages(msgs) && SealedFrom(p, st, msgs)
    ensures |last.plain| < CHUNK_SIZE
    ensures SealedAt(p, Session(st.key, st.header, st.counter + |msgs|), last)
    ensures Plains(msgs) + last.plain == input[..if |input| < grain then |input| else grain]
    ensures EncodeAsWritten(p, password, salt, header, input, grain) == salt + header + (Ciphers(msgs) + last.cipher)
  {
    st := InitPush(GenerateKey(p, password, salt).key, header);
    var ps := PiecesAsWritten(p, password, salt, header, input, grain);
    ShortReadsEndTheStream(p, password, salt, header, input, grain);
    PushTurnSealsFirst(p, st, Open(input, grain));
    msgs, last := [], ps[0];
    assert Ciphers(ps) == last.cipher + Ciphers([]);
    assert Ciphers(msgs) + last.cipher == last.cipher;
    assert Plains(msgs) + last.plain == last.plain;
  }

  /** The first piece of the loop as written is the session's first push. */
  lemma PushTurnSealsFirst(p: Primitives, st: Session, src: Source)
    requires Correct(p) && src.Valid() && !src.eof
    ensures var pc := PushLoopAsWritten(p, st, src)[0];
      pc.cipher == p.seal(st.key, st.header, st.counter, pc.plain, [], pc.tag)
  {
    var t := PushTurnAsWritten(p, st, src);
    assert PushLoopAsWritten(p, st, src)[0] == t.piece;
  }

  /** The two endpoints as written round-trip every input whenever the
      encoder's reads deliver whole chunks: the failed-pull test never
      matters, because no pull fails. */
  lemma EndpointsRoundTrip(p: Primitives, password: seq<byte>, salt: seq<byte>, header: seq<byte>, input: seq<byte>,
                           encodeGrain: nat, decodeGrain: nat)
    requires Correct(p) && |salt| == SALTBYTES && |header| == HEADERBYTES
    requires encodeGrain >= CHUNK_SIZE && decodeGrain >= HEADERBYTES
    ensures DecodeAsWritten(p, password, EncodeAsWritten(p, password, salt, header, input, encodeGrain), decodeGrain)
         == Finished(input)
  {
    RoundTrip(p, password, salt, header, input, encodeGrain, decodeGrain);
  }
}

=== FILE: sodium.dfy ===
/** The parts of libsodium the container format relies on: Argon2id password
    hashing (`sodium_crypto_pwhash`) and the XChaCha20-Poly1305 secretstream
    (`init_push`, `push`, `init_pull`, `pull`).

    The primitives themselves are not modelled. They are carried as function
    values in a `Primitives` record, and all the framing code may assume about
    them is the functional-correctness promise `Correct`: the hash has the
    requested length, a header of the right length is accepted, a ciphertext
    is ABYTES longer than its plaintext, and pulling the i-th ciphertext of a
    session with the same key, header and associated data gives back the
    plaintext and tag that were pushed. Nothing is assumed about what `open`
    does with any other input: it may fail or not. */
module Sodium {

  type byte = b: int | 0 <= b < 256

  datatype Option<+T> = None | Some(value: T)

  /** crypto_pwhash_SALTBYTES */
  const SALTBYTES: nat := 16
  /** crypto_secretstream_xchacha20poly1305_KEYBYTES; the source asks pwhash for 32 bytes */
  const KEYBYTES: nat := 32
  /** crypto_secretstream_xchacha20poly1305_HEADERBYTES */
  const HEADERBYTES: nat := 24
  /** crypto_secretstream_xchacha20poly1305_ABYTES: per-chunk overhead (tag byte + MAC) */
  const ABYTES: nat := 17
  /** crypto_pwhash_OPSLIMIT_MODERATE (Argon2id) */
  const OPSLIMIT_MODERATE: nat := 3
  /** crypto_pwhash_MEMLIMIT_MODERATE (Argon2id), in bytes */
  const MEMLIMIT_MODERATE: nat := 268435456

  /** The four secretstream tags, TAG_MESSAGE = 0, TAG_PUSH = 1, TAG_REKEY = 2, TAG_FINAL = 3. */
  datatype Tag = Message | Push | Rekey | Final

  /** What a successful pull yields. */
  datatype Opened = Opened(plain: seq<byte>, tag: Tag)

  /** The foreign primitives, as uninterpreted function values.
      - pwhash(outlen, password, salt, opslimit, memlimit)
      - headerAccepted(key, header): whether init_pull accepts the header
      - seal(key, header, counter, message, ad, tag): the counter-th push of a session
      - open(key, header, counter, ciphertext, ad): the counter-th pull of a session */
  datatype Primitives = Primitives(
    pwhash: (nat, seq<byte>, seq<byte>, nat, nat) -> seq<byte>,
    headerAccepted: (seq<byte>, seq<byte>) -> bool,
    seal: (seq<byte>, seq<byte>, nat, seq<byte>, seq<byte>, Tag) -> seq<byte>,
    open: (seq<byte>, seq<byte>, nat, seq<byte>, seq<byte>) -> Option<Opened>)

  /** The functional-correctness promise of libsodium, and nothing more. */
  ghost predicate Correct(p: Primitives) {
    && (forall n, pw, salt, ops, mem :: |p.pwhash(n, pw, salt, ops, mem)| == n)
    && (forall k, h :: |k| == KEYBYTES && |h| == HEADERBYTES ==> p.headerAccepted(k, h))
    && (forall k, h, i, m, ad, t :: |p.seal(k, h, i, m, ad, t)| == |m| + ABYTES)
    && (forall k, h, i, m, ad, t :: p.open(k, h, i, p.seal(k, h, i, m, ad, t), ad) == Some(Opened(m, t)))
  }

  /** Session state of a secretstream: the key, the header it was started
      with, and how many chunks it has processed so far. Push and pull
      sessions share the representation, as in libsodium. */
  datatype Session = Session(key: seq<byte>, header: seq<byte>, counter: nat)

  /** Argon2id key derivation. */
  function PwHash(p: Primitives, outlen: nat, password: seq<byte>, salt: seq<byte>, ops: nat, mem: nat): (key: seq<byte>)
    requires Correct(p)
    ensures |key| == outlen
  {
    p.pwhash(outlen, password, salt, ops, mem)
  }

  /** init_push: `header` stands for the random header libsodium generates. */
  function InitPush(key: seq<byte>, header: seq<byte>): (st: Session)
    ensures st.counter == 0 && st.key == key && st.header == header
  {
    Session(key, header, 0)
  }

  /** init_pull: fails exactly when the header is not accepted for the key. */
  function InitPull(p: Primitives, header: seq<byte>, key: seq<byte>): (r: Option<Session>)
    ensures r.Some? <==> p.headerAccepted(key, header)
    ensures r.Some? ==> r.value == InitPush(key, header)
  {
    if p.headerAccepted(key, header) then Some(Session(key, header, 0)) else None
  }

  /** push: seals one chunk and advances the session. */
  function PushChunk(p: Primitives, st: Session, message: seq<byte>, ad: seq<byte>, tag: Tag): (r: (seq<byte>, Session))
    requires Correct(p)
    ensures |r.0| == |message| + ABYTES
    ensures r.1 == Session(st.key, st.header, st.counter + 1)
  {
    (p.seal(st.key, st.header, st.counter, message, ad, tag), Session(st.key, st.header, st.counter + 1))
  }

  /** pull: opens one chunk and, on success, advances the session. */
  function PullChunk(p: Primitives, st: Session, cipher: seq<byte>, ad: seq<byte>): (r: Option<(Opened, Session)>)
    ensures r.Some? ==> r.value.1 == Session(st.key, st.header, st.counter + 1)
    // with correct primitives, the session's own next push pulls back to
    // its message and tag, and the session moves on by one chunk
    ensures Correct(p) ==> forall m, t :: cipher == p.seal(st.key, st.header, st.counter, m, ad, t) ==>
      r == Some((Opened(m, t), Session(st.key, st.header, st.counter + 1)))
  {
    match p.open(st.key, st.header, st.counter, cipher, ad)
    case None => None
    case Some(o) => Some((o, Session(st.key, st.header, st.counter + 1)))
  }

  /** Pulling what the same session pushed gives back the message and its tag. */
  lemma PullAfterPush(p: Primitives, st: Session, message: seq<byte>, ad: seq<byte>, tag: Tag)
    requires Correct(p)
    ensures PullChunk(p, st, PushChunk(p, st, message, ad, tag).0, ad)
         == Some((Opened(message, tag), PushChunk(p, st, message, ad, tag).1))
  {
  }

  /** A concrete instance of the primitives: a tag byte, the message in the
      clear, and sixteen zero bytes. Worthless as cryptography; it only shows
      that `Correct` can be met, so lemmas that assume it are not vacuous. */
  function TagByte(t: Tag): byte {
    match t
    case Message => 0
    case Push => 1
    case Rekey => 2
    case Final => 3
  }

  function ByteTag(b: byte): Option<Tag> {
    if b == 0 then Some(Message)
    else if b == 1 then Some(Push)
    else if b == 2 then Some(Rekey)
    else if b == 3 then Some(Final)
    else None
  }

  function Zeros(n: nat): (z: seq<byte>)
    ensures |z| == n
  {
    seq(n, _ => 0)
  }

  function ToySeal(k: seq<byte>, h: seq<byte>, i: nat, m: seq<byte>, ad: seq<byte>, t: Tag): seq<byte> {
    [TagByte(t)] + m + Zeros(ABYTES - 1)
  }

  function ToyOpen(k: seq<byte>, h: seq<byte>, i: nat, c: seq<byte>, ad: seq<byte>): Option<Opened> {
    if |c| < ABYTES then None
    else match ByteTag(c[0])
      case None => None
      case Some(t) => Some(Opened(c[1..|c| - (ABYTES - 1)], t))
  }

  function Toy(): Primitives {
    Primitives(
      (n, pw, salt, ops, mem) => Zeros(n),
      (k: seq<byte>, h: seq<byte>) => |k| == KEYBYTES && |h| == HEADERBYTES,
      ToySeal,
      ToyOpen)
  }

  lemma ToyIsCorrect()
    ensures Correct(Toy())
  {
    var p := Toy();
    forall k, h, i, m, ad, t
      ensures p.open(k, h, i, p.seal(k, h, i, m, ad, t), ad) == Some(Opened(m, t))
    {
      var c := ToySeal(k, h, i, m, ad, t);
      assert c[0] == TagByte(t);
      assert c[1..|c| - (ABYTES - 1)] == m;
    }
  }
}
